=== FILE: README.md ===
# DiscordCompressor planning core, modelled in Dafny

DiscordCompressor is a small Windows tool. It re-encodes a video with two
`ffmpeg` passes so that the result fits under a chat service's upload limit
of 25, 50 or 100 MB. This project models the decision logic of
`DiscordCompressor/Program.cs`, with every process, file and dialog replaced
by plain inputs:

- **Command line** (`cli.dfy`, module `CommandLine`):
  - the size preset: `"25"` → 24.5 MB, `"50"` → 49.5 MB, `"100"` → 99 MB;
  - joining the remaining arguments into the input path;
  - deriving the output path `<dir>\<stem>_compressed.mp4`.
- **Paths** (`paths.dfy`, module `Paths`): the .NET path functions `Main`
  relies on: `GetDirectoryName`, `GetFileName`,
  `GetFileNameWithoutExtension` and `Combine`. They follow their Windows
  behaviour on the .NET (Core) runtime. The program calls `args.Skip(1)`
  without a `using System.Linq`, so it targets the SDK-style runtime with
  implicit usings.
- **Timestamps** (`timestamp.dfy`, module `Timestamp`): the leftmost match
  of `<key>HH:MM:SS.CC`, as the two regular expressions find it. The
  `TimeSpan` built from the match is kept as whole milliseconds.
- **Duration probing** (`probe.dfy`, module `Probe`): `GetVideoDuration` over
  the probe's standard-error lines.
  - Null and empty lines are skipped.
  - The last matching line wins.
  - The default is 0.
- **Bitrate planning** (`planner.dfy`, module `Planner`):
  - the target is `size * 1024 * 1024` bytes;
  - an input not larger than the target is refused;
  - the video bitrate is `target * 8 / seconds - 192 * 1024`, with no clamp.
- **Progress** (`progress.dfy`, module `Progress`): `ParseProgress` for
  `out_time=` status lines. It gives the exact percentage and its `(int)`
  truncation, without a clamp.
- **Orchestration** (`orchestrator.dfy`, module `Orchestrator`):
  `CompressVideo` as a state machine with the stages duration check → size
  check → first pass → second pass → cleanup, and `Main` built on top of it.
  - A run records its outcome, the encoder passes launched, the progress
    updates handed to `UpdateProgress` and whether cleanup happened.
  - The state machine is proved equal to a straight-line reading of the
    code.

Inputs the outside world supplies are parameters:

- the probe's standard-error lines (`None` is the null line that ends a stream);
- the input file's length;
- the two exit codes;
- the second pass's status lines.

Times are integer milliseconds. Sizes and bitrates are Dafny `real`. The
C# `(int)` conversion is written out as truncation toward zero.

Three facts about the code shape the plan:

- the presets are 24.5, 49.5 and 99 MB;
- the audio allowance is a constant 196608 bits per second (192 * 1024);
- nothing rejects a plan whose video bitrate is zero or negative. The first
  pass is still launched at that bitrate, and the second follows whenever
  the first exits with 0 (`Planner.LongVideoGetsNegativeBitrate`,
  `Orchestrator.LongVideoIsStillEncoded`).

A consequence of the .NET path rules is worth knowing. For a drive-relative
input such as `C:clip.mp4`, the directory name is `C:`, and `Path.Combine`
adds a separator after it. The output therefore lands at
`C:\clip_compressed.mp4`, the root of the drive, not next to the input
(`Paths.DriveRelativeInputMovesToRoot`). For every other non-UNC input,
with `\` or `/` separators and repeated separators inside the path
included, the output's directory name is the input's, provided the new file
name is not itself drive-shaped (`Paths.OutputInSameDirectory`). A stem
such as `a:b` (from the alternate-stream name `C:\V\a:b.mov`) makes
`a:b_compressed.mp4` a rooted path, and `Path.Combine` returns it alone.

## Model

| member | source | states |
|---|---|---|
| CommandLine.Preset | DiscordCompressor/Program.cs:26-41 | exactly the strings `25`, `50` and `100` are accepted; each gives a budget below the limit it names and at most 1 MB under it |
| CommandLine.PresetTable | DiscordCompressor/Program.cs:26-41 | the three preset values, and refusal of near misses (`""`, `"25 "`, `"24.5"`, `"250"`) |
| CommandLine.PresetBudgetBelowLimit | DiscordCompressor/Program.cs:26-41 | the byte budget of each preset is strictly below the named number of megabytes and within one megabyte of it |
| CommandLine.JoinSpaces | DiscordCompressor/Program.cs:49 | `string.Join(" ", parts)` is as long as the parts plus one separator between each pair |
| CommandLine.InputPath | DiscordCompressor/Program.cs:43-50 | the special case for exactly two arguments gives the same path as joining `args[1..]` with spaces |
| CommandLine.JoinOfSplit | DiscordCompressor/Program.cs:49 | joining the pieces of a text split at every space gives back the text, runs of spaces included |
| CommandLine.SplitOfJoin | DiscordCompressor/Program.cs:49 | splitting space-free words joined by spaces gives back the words |
| CommandLine.SplitPathIsReassembled | DiscordCompressor/Program.cs:43-50 | the pieces of a path split at each single space, passed after the size argument, are joined back into that path; this is how the command-line parser hands over a path whose blanks are single spaces |
| CommandLine.DoubledSpaceCollapses | DiscordCompressor/Program.cs:43-50 | a run of two spaces in an unquoted path, which arrives as two arguments, is rejoined as one space, so the input path differs from the typed one |
| CommandLine.ParseArgs | DiscordCompressor/Program.cs:21-53 | fewer than two arguments are refused first; then an unknown preset; then an input without a directory name (where `Path.Combine` throws); otherwise the request carries the preset, the joined input and the derived output path |
| CommandLine.ParseExample | DiscordCompressor/Program.cs:21-53 | `50 C:\Videos\clip.final.mov` gives 49.5 MB and output `C:\Videos\clip.final_compressed.mp4` |
| Paths.GetDirectoryName | DiscordCompressor/Program.cs:52 | there is no directory name (`null`) exactly when the path is blank or is only a root; any directory name is shorter than the path |
| Paths.GetFileName | DiscordCompressor/Program.cs:53 | the file name holds no directory separator |
| Paths.GetFileNameWithoutExtension | DiscordCompressor/Program.cs:53 | the stem is the file name cut just before its last `.`, or the whole file name when it has no `.`; it holds no directory separator |
| Paths.Combine | DiscordCompressor/Program.cs:52-53 | an empty second path gives the first; an empty first path or a rooted second path gives the second; otherwise the first path is kept in front, the second ends the result, and one `\` is inserted exactly when neither side has a separator at the seam |
| Paths.OutputPath | DiscordCompressor/Program.cs:52-53 | there is an output path exactly when the input has a directory name, and it ends in `_compressed.mp4` |
| Paths.NewFileName | DiscordCompressor/Program.cs:53 | the new file name is the input's stem followed by `_compressed.mp4`: it starts with the stem, ends with the suffix, and its length is the sum of the two |
| Paths.NewFileNameFacts | DiscordCompressor/Program.cs:53 | the new file name has no separator, is at least as long as the suffix and ends in `4` |
| Paths.CombinedFileName | DiscordCompressor/Program.cs:52 | combining a directory with a plain relative name gives a path whose file name is that name |
| Paths.OutputFileName | DiscordCompressor/Program.cs:52-53 | when the new file name is not drive-shaped (`a:…`), the output's file name is the input's name without its last extension plus `_compressed.mp4` |
| Paths.OutputInSameDirectory | DiscordCompressor/Program.cs:52-53 | for every non-UNC input that is not drive-relative (`C:name`) and whose new file name is not drive-shaped (`a:…`), the output's directory name equals the input's |
| Paths.DirectoryNameShape | DiscordCompressor/Program.cs:52 | a directory name of an input that is not drive-relative is unchanged by normalising it again, and is empty, a bare root ending in `\`, or longer than its root and ending in a non-separator |
| Paths.NormalizeIdempotent | DiscordCompressor/Program.cs:52 | the separator normalisation applied to directory names gives the same result when applied twice |
| Paths.OutputPathExample | DiscordCompressor/Program.cs:52-53 | only the last extension is cut: `C:\Videos\clip.final.mov` → `C:\Videos\clip.final_compressed.mp4` |
| Paths.DriveRootHasNoOutput | DiscordCompressor/Program.cs:52 | a bare drive root has no directory name, so no output path is derived |
| Paths.DriveRelativeInputMovesToRoot | DiscordCompressor/Program.cs:52-53 | `C:clip.mp4` yields `C:\clip_compressed.mp4`, whose directory `C:\` differs from the input's `C:` |
| Timestamp.Scan | DiscordCompressor/Program.cs:234-242 | a time read from a line is at most 99:99:99.99 and a whole number of centiseconds; that a time is read exactly when the pattern occurs, at its leftmost occurrence, is `Timestamp.ScanIsLeftmostMatch` |
| Timestamp.SpanMillis | DiscordCompressor/Program.cs:238-242 | `new TimeSpan(0, h, m, s, cc * 10)` lasts h hours, m minutes, s seconds and cc centiseconds, summed in milliseconds with no range check on the fields |
| Timestamp.TwoDigits | DiscordCompressor/Program.cs:238-241 | a two-digit group parses to a value below 100 whose tens and units are the two digits |
| Timestamp.StampMillis | DiscordCompressor/Program.cs:238-242 | a matched stamp denotes at most 99:99:99.99, a whole number of centiseconds |
| Timestamp.FindFrom | DiscordCompressor/Program.cs:234-235 | the search finds the leftmost position from which the pattern matches, and finds nothing exactly when no later position matches |
| Timestamp.ScanIsLeftmostMatch | DiscordCompressor/Program.cs:234-242 | a line yields a time exactly when the pattern occurs in it; the time is that of the leftmost occurrence |
| Timestamp.StampRoundTrip | DiscordCompressor/Program.cs:238-242 | reading back a formatted `HH:MM:SS.CC` gives the time that was formatted |
| Timestamp.ScanFormatted | DiscordCompressor/Program.cs:234-242 | a line starting with the key and a formatted stamp is read as that stamp's time, whatever follows |
| Timestamp.ScanIndented | DiscordCompressor/Program.cs:234-242 | leading blanks before the key do not change the time read |
| Probe.LineDuration | DiscordCompressor/Program.cs:232-242 | a line's reported duration never exceeds 99:99:99.99 |
| Probe.LineDurationIsLeftmostMatch | DiscordCompressor/Program.cs:232-242 | a line reports a duration exactly when `Duration: HH:MM:SS.CC` occurs in it, and the duration is the time at the leftmost occurrence |
| Probe.ProbeDuration | DiscordCompressor/Program.cs:227-251 | the probed duration never exceeds 99:99:99.99 |
| Probe.ProbeReportsLastDuration | DiscordCompressor/Program.cs:227-251 | with no duration line the result is 0; otherwise it is the duration of the last line that reports one |
| Probe.GetVideoDuration | DiscordCompressor/Program.cs:215-252 | the handler loop, overwriting one variable that starts at 0, ends with the last-line-wins duration |
| Probe.LastDurationLineExists | DiscordCompressor/Program.cs:227-251 | if some line reports a duration, a last such line exists and the probe's result is that line's duration |
| Probe.LaterLinesOverride | DiscordCompressor/Program.cs:230-245 | of two consecutive stretches of output, the later decides unless it reports nothing |
| Probe.BlankLinesReportNothing | DiscordCompressor/Program.cs:232 | null and empty lines report no duration |
| Probe.ProbeReadsMetadataLine | DiscordCompressor/Program.cs:234-242 | `  Duration: 00:01:30.50, start: 0.000000` reports 90500 ms |
| Probe.ProbeTakesRestatedDuration | DiscordCompressor/Program.cs:227-251 | of two duration lines the second wins, and a final null line changes nothing |
| Probe.ProbeWithoutDuration | DiscordCompressor/Program.cs:227-251 | output without a duration line gives 0 |
| Progress.Truncate | DiscordCompressor/Program.cs:269 | `(int)` truncates toward zero: within one below (or above, for negatives) the real value |
| Progress.OutTime | DiscordCompressor/Program.cs:256-266 | a line reports an elapsed time exactly when `out_time=HH:MM:SS.CC` occurs in it; the time is the one at the leftmost occurrence, never above 99:99:99.99 |
| Progress.ProgressAt | DiscordCompressor/Program.cs:262-269 | the exact percentage times the total is 100 times the elapsed time, and the truncated one is the integer quotient |
| Progress.ExactPercent | DiscordCompressor/Program.cs:268 | the exact percentage `elapsed / total * 100`, multiplied by the total, is 100 times the elapsed time |
| Progress.ParseProgress | DiscordCompressor/Program.cs:254-271 | a line produces an update exactly when `out_time=HH:MM:SS.CC` occurs in it; the update's percentage is the elapsed time times 100 divided by the total in integer division, and its exact figure is elapsed over total times 100 |
| Progress.PercentIsQuotient | DiscordCompressor/Program.cs:268-269 | over exact values, `(int)(elapsed / total * 100)` equals `elapsed * 100 / total` in integer division |
| Progress.UpdatesOfLine | DiscordCompressor/Program.cs:170 | a single status line causes at most one progress update |
| Progress.ProgressUpdates | DiscordCompressor/Program.cs:170 | a status stream causes at most one update per line |
| Progress.UpdatesOfConcatenation | DiscordCompressor/Program.cs:170 | lines are handled independently: the updates of two stretches of output are the updates of each, in order |
| Progress.OneUpdatePerOutTimeLine | DiscordCompressor/Program.cs:254-271 | the number of updates equals the number of `out_time` lines; with none there are no updates |
| Progress.PercentMonotone | DiscordCompressor/Program.cs:268-269 | a later elapsed time never shows a smaller percentage |
| Progress.PercentWithinRangeUntilEnd | DiscordCompressor/Program.cs:268-269 | up to the probed duration the percentage is within 0..100, and exactly 100 at the end |
| Progress.PercentExceeds100PastTheEnd | DiscordCompressor/Program.cs:268-269 | no clamp: at least 1% past the probed duration, the percentage exceeds 100 |
| Progress.HalfwayExample | DiscordCompressor/Program.cs:254-271 | `out_time=00:00:45.00` of 90 s is the update (50, 50.0) |
| Progress.OverrunExample | DiscordCompressor/Program.cs:254-271 | `out_time=00:01:30.00` of 60 s is the update (150, 150.0) |
| Planner.AlreadyUnderTarget | DiscordCompressor/Program.cs:121-126 | the input is refused as already small enough exactly when its length in bytes, over 1024 * 1024, is at most the preset size in megabytes |
| Planner.TargetBytes | DiscordCompressor/Program.cs:121 | the budget in bytes divided by 1024 * 1024 gives back the size in megabytes |
| Planner.VideoBitrate | DiscordCompressor/Program.cs:132-134 | video bitrate plus the 192 * 1024 audio allowance, over the duration in seconds, is exactly the budget in bits |
| Planner.BitrateSpendsBudget | DiscordCompressor/Program.cs:121-134 | the planned video and audio rates over the video's length spend exactly the byte budget |
| Planner.NonPositiveBitrateIff | DiscordCompressor/Program.cs:132-134 | the bitrate is zero or negative exactly when the audio allowance alone uses up the budget |
| Planner.BitrateFallsWithDuration | DiscordCompressor/Program.cs:132-134 | for a fixed non-negative budget, a longer video never gets a higher bitrate |
| Planner.BitrateGrowsWithSize | DiscordCompressor/Program.cs:121-134 | for a fixed video, a larger budget never gets a lower bitrate |
| Planner.LongVideoGetsNegativeBitrate | DiscordCompressor/Program.cs:132-134 | an 18 min 20 s video at the 25 MB preset is planned at a negative bitrate |
| Orchestrator.Step | DiscordCompressor/Program.cs:112-186 | each stage moves strictly toward the end, only ever appends one launch, keeps a positive duration once it is known, and cleans up only on success |
| Orchestrator.Run | DiscordCompressor/Program.cs:112-186 | running the stages always finishes and never removes a launch |
| Orchestrator.CompressVideo | DiscordCompressor/Program.cs:112-186 | a compression always reaches an outcome |
| Orchestrator.StraightLine | DiscordCompressor/Program.cs:112-186 | the code's nested decision always ends in an outcome with at most two launches |
| Orchestrator.StagesFollowCode | DiscordCompressor/Program.cs:112-186 | the staged run ends in exactly the state the straight-line reading of `CompressVideo` gives |
| Orchestrator.OutcomeOfRun | DiscordCompressor/Program.cs:114-186 | an unknown duration fails before the size check; a small input stops next; a failing first pass stops before the second; success holds exactly when both exit codes are 0; failure codes are the exit codes; cleanup happens exactly on success |
| Orchestrator.LaunchesOfRun | DiscordCompressor/Program.cs:138-180 | no pass when a check stops the run, only the first pass when it fails, both otherwise; pass 1 reads the input and writes to `NUL`, pass 2 writes the output |
| Orchestrator.PassesShareBitrate | DiscordCompressor/Program.cs:132-154 | every launched pass uses the one bitrate the planner computed from the probed duration |
| Orchestrator.ProgressOfRun | DiscordCompressor/Program.cs:168-180 | updates are handed to `UpdateProgress` only when pass 2 runs, and then they are the updates of pass 2's status lines, whatever its exit code |
| Orchestrator.LongVideoIsStillEncoded | DiscordCompressor/Program.cs:132-166 | an 18 min 20 s video larger than the 25 MB budget still gets its first pass, at a negative bitrate |
| Orchestrator.RunProgram | DiscordCompressor/Program.cs:17-105 | the program stops at the command line exactly when there are fewer than two arguments, the preset is unknown or the joined path has no directory name, with the error of the first check that fails; otherwise it compresses the preset, the joined path and the derived output path. The overwrite prompt is taken as accepted |
| Orchestrator.LaunchesNeedValidRequest | DiscordCompressor/Program.cs:17-105 | an encoder pass starts only for valid arguments, a known duration and an input above the budget; it reads the joined path, and pass 2 writes the derived output path |

## Left out

- `DiscordCompressor/ProgressForm.Designer.cs`: window layout and the thread marshalling of `UpdateProgress` are user interface. An update is recorded as the pair of values handed to it.
- The progress bar's range check is left out. `UpdateProgress` assigns the percentage to `progressBar.Value` (line 16 of `ProgressForm.Designer.cs`), and that setter throws above the bar's maximum of 100. The throw reaches the pass-2 standard-error handler through `Invoke`, and the runtime's stream reader rethrows it on a pool thread, which ends the process. So a status line at least 1% past the probed duration (`Progress.PercentExceeds100PastTheEnd`, `Progress.OverrunExample`) ends the real program during pass 2, with no outcome and no cleanup. In the model such an update is only recorded, and `Orchestrator.OutcomeOfRun` and `Orchestrator.ProgressOfRun` still let that run reach `Succeeded` with cleanup.
- Dialogs: every `MessageBox` and its text are left out. So is the file-existence probing in `Main` (lines 58-78), which is file-system I/O. `fileExists` is computed there but never used.
- Orchestrator.RunProgram: assumes the overwrite prompt of lines 80-89 is accepted, or that no output file exists yet. When the user answers No, the program also stops before compressing; that answer is interaction and is not an input of the model.
- Processes: starting them, `WaitForExit`, event wiring and the `Task.Run` worker. Their observable results (standard-error lines, exit codes, file length) are inputs. `Process.Start` throwing, for instance when `ffmpeg` is not on the `PATH`, is left out: nothing in `CompressVideo` catches it, so the worker task faults and no outcome is reached.
- `DeleteTemporaryFiles` and the clock-based report file name: file-system side effects and a clock. Cleanup is a flag set on success.
- The text of the `ffmpeg` argument strings, including how the `double` bitrate is printed. A launch records the pass, source, bitrate and destination.
- A missing input file (`FileInfo.Length` throws) and an unreadable one: file-system failures, outside the model. The input length is an input.
- IEEE floating point: sizes and bitrates are exact reals, and times are exact milliseconds instead of `double` seconds. The program's truncated percentage can therefore be one lower than the model's `elapsed * 100 / total`. For 0.57 s of 1.00 s, `(0.57 / 1.0) * 100` is 56.99999999999999 in `double` and the bar gets 56, where `Progress.ProgressAt` gives 57.
- .NET's Unicode `\d`: only ASCII digits are recognised.
- Paths: UNC paths, device paths (`\\?\`) are not modelled. The paths handled are drive-rooted, drive-relative, separator-rooted and relative paths with `\` and `/`.
- Progress.ParseProgress: requires a positive total duration. `CompressVideo` calls it only after rejecting a duration of 0, so the division by zero the method would face otherwise cannot happen.
- Progress.Truncate: models `(int)` as unbounded truncation. A percentage beyond 2^31 - 1, which needs a probed duration of exactly 00:00:00.01, is not converted with the runtime's out-of-range behaviour.
- Probe.ProbeDuration: states only the bound in its own contract. Its meaning (last line wins, 0 when absent) is stated by `Probe.ProbeReportsLastDuration`.
- Timestamp.StampMillis: states only the range in its own contract. The round trip with formatting is stated by `Timestamp.StampRoundTrip`.
- Progress.ProgressUpdates: states only a length bound in its own contract. The exact count (one update per `out_time` line) is stated by `Progress.OneUpdatePerOutTimeLine`, and line-by-line independence by `Progress.UpdatesOfConcatenation`.
- Paths.GetFileName: states only that the name holds no separator in its own contract. What it returns after a separator is stated by `Paths.FileNameAfterSeparator` and `Paths.CombinedFileName`.
- Orchestrator.CompressVideo: states only that the run finishes in its own contract. Outcomes, launches and progress are stated by `Orchestrator.OutcomeOfRun`, `Orchestrator.LaunchesOfRun` and `Orchestrator.ProgressOfRun`.
- Probe.LineDuration: states only the bound in its own contract. That the duration is the time at the leftmost `Duration: ` match is stated by `Probe.LineDurationIsLeftmostMatch`, kept apart because the quantified statement on a function used throughout the stream lemmas makes them too costly to verify.

=== FILE: cli.dfy ===
/**
 Command-line interpretation in `Main`. The first argument names one of
 three size presets, the remaining arguments are joined with single spaces
 into the input path (a shell that split an unquoted path at its spaces
 hands it over in pieces), and the output path is derived from the input.
 */
module CommandLine {
  import opened Wrappers
  import Timestamp
  import Planner
  import Paths

  /** Why `Main` stops before any compression. */
  datatype CliError =
    | MissingArguments      // fewer than two arguments
    | InvalidSize           // the first argument is not a known preset
    | NoDirectory           // `Path.Combine` throws on a `null` directory name

  /** What `Main` hands to `CompressVideo`. */
  datatype Request = Request(sizeMb: real, input: string, output: string)

  /** The decimal number written in `s` (ASCII digits; other characters count as 0). */
  function DecimalValue(s: string): (n: nat)
    decreases |s|
  {
    if |s| == 0 then 0
    else DecimalValue(s[..|s| - 1]) * 10 + (if Timestamp.IsDigit(s[|s| - 1]) then Timestamp.DigitValue(s[|s| - 1]) else 0)
  }

  /**
   The preset table: `"25"`, `"50"` and `"100"` are accepted and give a
   budget up to one megabyte below the named limit; every other string is
   refused.
   */
  function Preset(s: string): (size: Option<real>)
    ensures size.Some? <==> s == "25" || s == "50" || s == "100"
    ensures size.Some? ==> DecimalValue(s) as real - 1.0 <= size.value < DecimalValue(s) as real
  {
    NamedLimits();
    if s == "25" then Some(24.5)
    else if s == "50" then Some(49.5)
    else if s == "100" then Some(99.0)
    else None
  }

  /** The limits the three presets name. */
  lemma NamedLimits()
    ensures DecimalValue("25") == 25 && DecimalValue("50") == 50 && DecimalValue("100") == 100
  {
    assert "25"[..1] == "2" && "50"[..1] == "5";
    assert "100"[..2] == "10" && "10"[..1] == "1";
  }

  /** Total length of all parts. */
  function TotalLength(parts: seq<string>): nat {
    if |parts| == 0 then 0 else |parts[0]| + TotalLength(parts[1..])
  }

  /** `string.Join(" ", parts)`. */
  function JoinSpaces(parts: seq<string>): (r: string)
    ensures |parts| > 0 ==> |r| == TotalLength(parts) + |parts| - 1
    ensures |parts| == 0 ==> r == ""
  {
    if |parts| == 0 then ""
    else if |parts| == 1 then parts[0]
    else parts[0] + " " + JoinSpaces(parts[1..])
  }

  /** A command line split at every single space: the inverse of `JoinSpaces`. */
  function SplitSpaces(s: string): (parts: seq<string>)
    ensures |parts| >= 1
    decreases |s|
  {
    if |s| == 0 then [""]
    else
      var rest := SplitSpaces(s[1..]);
      if s[0] == ' ' then [""] + rest
      else [[s[0]] + rest[0]] + rest[1..]
  }

  predicate SpaceFree(w: string) {
    forall k :: 0 <= k < |w| ==> w[k] != ' '
  }

  /** The input path: `args[1]` for exactly two arguments, the joined rest otherwise. */
  function InputPath(args: seq<string>): (input: string)
    requires |args| >= 2
    ensures input == JoinSpaces(args[1..])
  {
    if |args| == 2 then args[1]
    else JoinSpaces(args[1..])
  }

  /** Lines 21-53 of `Main`: check the arguments, pick the preset, build both paths. */
  function ParseArgs(args: seq<string>): (r: Result<Request, CliError>)
    ensures r == Failure(MissingArguments) <==> |args| < 2
    ensures r == Failure(InvalidSize) <==> |args| >= 2 && Preset(args[0]).None?
    ensures r.Success? ==> |args| >= 2 && Preset(args[0]) == Some(r.value.sizeMb)
    ensures r.Success? ==> r.value.input == JoinSpaces(args[1..])
                           && Paths.OutputPath(r.value.input) == Some(r.value.output)
    ensures r == Failure(NoDirectory) <==>
              |args| >= 2 && Preset(args[0]).Some? && Paths.GetDirectoryName(JoinSpaces(args[1..])).None?
  {
    if |args| < 2 then Failure(MissingArguments)
    else match Preset(args[0])
      case None => Failure(InvalidSize)
      case Some(size) =>
        var input := InputPath(args);
        match Paths.OutputPath(input)
        case None => Failure(NoDirectory)
        case Some(output) => Success(Request(size, input, output))
  }

  /** Every preset budget stays strictly below the limit it names. */
  lemma PresetBudgetBelowLimit(s: string)
    requires Preset(s).Some?
    ensures Planner.TargetBytes(Preset(s).value) < DecimalValue(s) as real * Planner.BytesPerMegabyte
    ensures Planner.TargetBytes(Preset(s).value) >= (DecimalValue(s) as real - 1.0) * Planner.BytesPerMegabyte
  {
  }

  /** The preset table, value by value. */
  lemma PresetTable()
    ensures Preset("25") == Some(24.5) && Preset("50") == Some(49.5) && Preset("100") == Some(99.0)
    ensures Preset("") == None && Preset("25 ") == None && Preset("24.5") == None && Preset("250") == None
  {
  }

  lemma JoinUnfold(parts: seq<string>)
    requires |parts| >= 2
    ensures JoinSpaces(parts) == parts[0] + " " + JoinSpaces(parts[1..])
  {
  }

  /** Joining the pieces of a split gives back the original text, spaces included. */
  lemma {:induction false} JoinOfSplit(s: string)
    ensures JoinSpaces(SplitSpaces(s)) == s
    decreases |s|
  {
    if |s| > 0 {
      var rest := SplitSpaces(s[1..]);
      JoinOfSplit(s[1..]);
      if s[0] == ' ' {
        JoinUnfold([""] + rest);
        assert ([""] + rest)[1..] == rest;
        assert s == " " + s[1..];
      } else if |rest| == 1 {
        assert SplitSpaces(s) == [[s[0]] + rest[0]];
        assert s == [s[0]] + s[1..];
      } else {
        var parts := [[s[0]] + rest[0]] + rest[1..];
        JoinUnfold(parts);
        JoinUnfold(rest);
        assert parts[1..] == rest[1..];
        assert s == [s[0]] + s[1..];
      }
    }
  }

  /** A word without spaces splits into itself. */
  lemma {:induction false} SplitOfWord(w: string)
    requires SpaceFree(w)
    ensures SplitSpaces(w) == [w]
    decreases |w|
  {
    if |w| > 0 {
      SplitOfWord(w[1..]);
      assert [w[0]] + w[1..] == w;
    }
  }

  /** A word followed by a space and more text splits into the word and the split of the rest. */
  lemma {:induction false} SplitOfWordThenSpace(w: string, t: string)
    requires SpaceFree(w)
    ensures SplitSpaces(w + " " + t) == [w] + SplitSpaces(t)
    decreases |w|
  {
    var s := w + " " + t;
    if |w| == 0 {
      assert s == " " + t;
      assert s[1..] == t;
    } else {
      assert s[1..] == w[1..] + " " + t;
      SplitOfWordThenSpace(w[1..], t);
      assert [w[0]] + w[1..] == w;
    }
  }

  /** Splitting space-free words joined by spaces gives back the words. */
  lemma {:induction false} SplitOfJoin(parts: seq<string>)
    requires |parts| >= 1
    requires forall i :: 0 <= i < |parts| ==> SpaceFree(parts[i])
    ensures SplitSpaces(JoinSpaces(parts)) == parts
    decreases |parts|
  {
    if |parts| == 1 {
      SplitOfWord(parts[0]);
    } else {
      JoinUnfold(parts);
      SplitOfWordThenSpace(parts[0], JoinSpaces(parts[1..]));
      SplitOfJoin(parts[1..]);
      assert [parts[0]] + parts[1..] == parts;
    }
  }

  /**
   Splitting a path at each single space and passing the pieces after the
   size argument gives back that path. The Windows command-line parser
   splits at runs of blanks (spaces and tabs) and produces no empty pieces,
   so its arguments are exactly these pieces only for a path whose blanks
   are single spaces, none leading or trailing; any other run of blanks
   comes back as one space (`DoubledSpaceCollapses`).
   */
  lemma SplitPathIsReassembled(sizeArg: string, path: string)
    ensures InputPath([sizeArg] + SplitSpaces(path)) == path
  {
    var args := [sizeArg] + SplitSpaces(path);
    assert args[1..] == SplitSpaces(path);
    JoinOfSplit(path);
  }

  /**
   `C:\My  Videos\a.mov` typed unquoted, with two spaces, arrives as two
   arguments and is rejoined with one space: the input path is not the
   path that was typed.
   */
  lemma DoubledSpaceCollapses()
    ensures InputPath(["50", "C:\\My", "Videos\\a.mov"]) == "C:\\My Videos\\a.mov"
    ensures InputPath(["50", "C:\\My", "Videos\\a.mov"]) != "C:\\My  Videos\\a.mov"
  {
    var parts := ["C:\\My", "Videos\\a.mov"];
    assert ["50", "C:\\My", "Videos\\a.mov"][1..] == parts;
    JoinUnfold(parts);
    assert parts[1..] == ["Videos\\a.mov"];
  }

  /** A well-formed command line for a 50 MB target. */
  lemma ParseExample()
    ensures ParseArgs(["50", "C:\\Videos\\clip.final.mov"])
            == Success(Request(49.5, "C:\\Videos\\clip.final.mov", "C:\\Videos\\clip.final_compressed.mp4"))
  {
    Paths.OutputPathExample();
  }
}

=== FILE: orchestrator.dfy ===
/**
 The two-pass compression (`CompressVideo`) as a small state machine, and
 the whole program run (`Main`) built on top of it. The world outside the
 program is an `Environment`: the lines the probe prints, the input's
 length in bytes, the exit codes of the two encoder passes and the status
 lines of the second pass. A finished run records its outcome, the encoder
 passes launched in order, the progress updates handed to `UpdateProgress`
 and whether the temporary files were cleaned up.
 */
module Orchestrator {
  import opened Wrappers
  import Probe
  import Progress
  import Planner
  import CommandLine
  import Paths

  /** Where the first pass writes: the null device, only the statistics file matters. */
  const NullSink: string := "NUL"

  datatype Pass = FirstPass | SecondPass

  /** One encoder process: which pass, the file it reads, the `-b:v` bitrate and where it writes. */
  datatype Launch = Launch(pass: Pass, source: string, bitrate: real, destination: string)

  /** What the outside world answers during one compression. */
  datatype Environment = Environment(
    probeLines: seq<Option<string>>,
    inputLength: nat,
    firstExit: int,
    secondExit: int,
    secondPassLines: seq<Option<string>>)

  /** How `CompressVideo` ends; only `Succeeded` is a `true` return. */
  datatype Outcome =
    | Succeeded
    | DurationUnknown
    | AlreadySmallEnough
    | FirstPassFailed(code: int)
    | SecondPassFailed(code: int)

  datatype Stage =
    | CheckDuration
    | CheckSize
    | RunFirstPass
    | RunSecondPass
    | Cleanup
    | Finished(outcome: Outcome)

  datatype State = State(
    stage: Stage,
    durationMs: nat,
    bitrate: real,
    launched: seq<Launch>,
    progress: seq<Progress.Update>,
    cleanedUp: bool)

  /** Stages still ahead; every step lowers it. */
  function Rank(stage: Stage): nat {
    match stage
    case CheckDuration => 5
    case CheckSize => 4
    case RunFirstPass => 3
    case RunSecondPass => 2
    case Cleanup => 1
    case Finished(_) => 0
  }

  /** Past the duration check and not yet finished, a positive duration is known. */
  predicate Valid(st: State) {
    (st.stage.CheckSize? || st.stage.RunFirstPass? || st.stage.RunSecondPass? || st.stage.Cleanup?)
      ==> st.durationMs > 0
  }

  const Start: State := State(CheckDuration, 0, 0.0, [], [], false)

  /** One stage of `CompressVideo`. */
  function Step(sizeMb: real, input: string, output: string, env: Environment, st: State): (next: State)
    requires Valid(st)
    ensures Valid(next)
    ensures st.stage.Finished? ==> next == st
    ensures !st.stage.Finished? ==> Rank(next.stage) < Rank(st.stage)
    ensures st.launched <= next.launched && |next.launched| <= |st.launched| + 1
    ensures next.cleanedUp ==> st.cleanedUp || next.stage == Finished(Succeeded)
  {
    match st.stage
    case CheckDuration =>
      var d := Probe.ProbeDuration(env.probeLines);
      if d == 0 then st.(stage := Finished(DurationUnknown))
      else st.(stage := CheckSize, durationMs := d)
    case CheckSize =>
      if Planner.AlreadyUnderTarget(env.inputLength, sizeMb) then st.(stage := Finished(AlreadySmallEnough))
      else st.(stage := RunFirstPass, bitrate := Planner.VideoBitrate(sizeMb, st.durationMs))
    case RunFirstPass =>
      var launched := st.launched + [Launch(FirstPass, input, st.bitrate, NullSink)];
      if env.firstExit != 0 then st.(stage := Finished(FirstPassFailed(env.firstExit)), launched := launched)
      else st.(stage := RunSecondPass, launched := launched)
    case RunSecondPass =>
      var launched := st.launched + [Launch(SecondPass, input, st.bitrate, output)];
      var progress := st.progress + Progress.ProgressUpdates(env.secondPassLines, st.durationMs);
      if env.secondExit != 0 then
        st.(stage := Finished(SecondPassFailed(env.secondExit)), launched := launched, progress := progress)
      else st.(stage := Cleanup, launched := launched, progress := progress)
    case Cleanup =>
      st.(stage := Finished(Succeeded), cleanedUp := true)
    case Finished(_) =>
      st
  }

  /** Steps until the run is finished. */
  function Run(sizeMb: real, input: string, output: string, env: Environment, st: State): (final: State)
    requires Valid(st)
    ensures final.stage.Finished?
    ensures st.launched <= final.launched
    decreases Rank(st.stage)
  {
    if st.stage.Finished? then st
    else Run(sizeMb, input, output, env, Step(sizeMb, input, output, env, st))
  }

  /** `CompressVideo(size, input, output)`: the run from the first stage. */
  function CompressVideo(sizeMb: real, input: string, output: string, env: Environment): (final: State)
    ensures final.stage.Finished?
  {
    Run(sizeMb, input, output, env, Start)
  }

  /**
   The straight-line reading of `CompressVideo`: the final state the code
   reaches, written as one nested decision instead of a sequence of stages.
   */
  function StraightLine(sizeMb: real, input: string, output: string, env: Environment): (f: State)
    ensures f.stage.Finished? && |f.launched| <= 2
  {
    var d := Probe.ProbeDuration(env.probeLines);
    if d == 0 then State(Finished(DurationUnknown), 0, 0.0, [], [], false)
    else if Planner.AlreadyUnderTarget(env.inputLength, sizeMb) then
      State(Finished(AlreadySmallEnough), d, 0.0, [], [], false)
    else
      var b := Planner.VideoBitrate(sizeMb, d);
      var first := Launch(FirstPass, input, b, NullSink);
      if env.firstExit != 0 then State(Finished(FirstPassFailed(env.firstExit)), d, b, [first], [], false)
      else
        var both := [first, Launch(SecondPass, input, b, output)];
        var updates := Progress.ProgressUpdates(env.secondPassLines, d);
        if env.secondExit != 0 then State(Finished(SecondPassFailed(env.secondExit)), d, b, both, updates, false)
        else State(Finished(Succeeded), d, b, both, updates, true)
  }

  /** Stepping the state machine from the start ends where the straight-line reading ends. */
  lemma StagesFollowCode(sizeMb: real, input: string, output: string, env: Environment)
    ensures CompressVideo(sizeMb, input, output, env) == StraightLine(sizeMb, input, output, env)
  {
    var st1 := Step(sizeMb, input, output, env, Start);
    assert CompressVideo(sizeMb, input, output, env) == Run(sizeMb, input, output, env, st1);
    if !st1.stage.Finished? {
      var st2 := Step(sizeMb, input, output, env, st1);
      assert Run(sizeMb, input, output, env, st1) == Run(sizeMb, input, output, env, st2);
      if !st2.stage.Finished? {
        var st3 := Step(sizeMb, input, output, env, st2);
        assert Run(sizeMb, input, output, env, st2) == Run(sizeMb, input, output, env, st3);
        if !st3.stage.Finished? {
          var st4 := Step(sizeMb, input, output, env, st3);
          assert Run(sizeMb, input, output, env, st3) == Run(sizeMb, input, output, env, st4);
          if !st4.stage.Finished? {
            var st5 := Step(sizeMb, input, output, env, st4);
            assert st5.stage.Finished?;
            assert Run(sizeMb, input, output, env, st4) == st5;
            assert [] + [Launch(FirstPass, input, st3.bitrate, NullSink)] + [Launch(SecondPass, input, st3.bitrate, output)]
                   == [Launch(FirstPass, input, st3.bitrate, NullSink), Launch(SecondPass, input, st3.bitrate, output)];
          } else {
            assert [] + [Launch(FirstPass, input, st3.bitrate, NullSink)] + [Launch(SecondPass, input, st3.bitrate, output)]
                   == [Launch(FirstPass, input, st3.bitrate, NullSink), Launch(SecondPass, input, st3.bitrate, output)];
          }
        }
      }
    }
  }

  /**
   The order of the checks decides the outcome: an unknown duration fails
   before the size is looked at, a small enough input stops before any
   pass, a failing first pass stops before the second, and the run
   succeeds exactly when both passes exit with 0; cleanup happens then and
   only then.
   */
  lemma OutcomeOfRun(sizeMb: real, input: string, output: string, env: Environment)
    ensures var f := CompressVideo(sizeMb, input, output, env);
            var d := Probe.ProbeDuration(env.probeLines);
            var small := Planner.AlreadyUnderTarget(env.inputLength, sizeMb);
            && (f.stage.outcome == DurationUnknown <==> d == 0)
            && (f.stage.outcome == AlreadySmallEnough <==> d > 0 && small)
            && (f.stage.outcome.FirstPassFailed? <==> d > 0 && !small && env.firstExit != 0)
            && (f.stage.outcome.SecondPassFailed? <==> d > 0 && !small && env.firstExit == 0 && env.secondExit != 0)
            && (f.stage.outcome == Succeeded <==> d > 0 && !small && env.firstExit == 0 && env.secondExit == 0)
            && (f.stage.outcome.FirstPassFailed? ==> f.stage.outcome.code == env.firstExit)
            && (f.stage.outcome.SecondPassFailed? ==> f.stage.outcome.code == env.secondExit)
            && (f.cleanedUp <==> f.stage.outcome == Succeeded)
  {
    StagesFollowCode(sizeMb, input, output, env);
  }

  /**
   No pass starts when a check stops the run; a failing first pass is the
   only pass; otherwise exactly two passes start, the first reading the
   input and writing to the null device, the second reading the input and
   writing the output file.
   */
  lemma LaunchesOfRun(sizeMb: real, input: string, output: string, env: Environment)
    ensures var ls := CompressVideo(sizeMb, input, output, env).launched;
            var d := Probe.ProbeDuration(env.probeLines);
            var small := Planner.AlreadyUnderTarget(env.inputLength, sizeMb);
            && (ls == [] <==> d == 0 || small)
            && (|ls| == 1 <==> d > 0 && !small && env.firstExit != 0)
            && (|ls| == 2 <==> d > 0 && !small && env.firstExit == 0)
            && (|ls| >= 1 ==> ls[0].pass == FirstPass && ls[0].source == input && ls[0].destination == NullSink)
            && (|ls| == 2 ==> ls[1].pass == SecondPass && ls[1].source == input && ls[1].destination == output)
  {
    StagesFollowCode(sizeMb, input, output, env);
  }

  /** Every pass is launched with one and the same bitrate, the one the planner computed. */
  lemma PassesShareBitrate(sizeMb: real, input: string, output: string, env: Environment)
    ensures var ls := CompressVideo(sizeMb, input, output, env).launched;
            forall i :: 0 <= i < |ls| ==>
              Probe.ProbeDuration(env.probeLines) > 0
              && ls[i].bitrate == Planner.VideoBitrate(sizeMb, Probe.ProbeDuration(env.probeLines))
  {
    StagesFollowCode(sizeMb, input, output, env);
  }

  /** Updates are handed to `UpdateProgress` only while the second pass runs: one update per `out_time` line it prints, whatever its exit code. */
  lemma ProgressOfRun(sizeMb: real, input: string, output: string, env: Environment)
    ensures var f := CompressVideo(sizeMb, input, output, env);
            var d := Probe.ProbeDuration(env.probeLines);
            && (|f.launched| < 2 ==> f.progress == [])
            && (|f.launched| == 2 ==> d > 0 && f.progress == Progress.ProgressUpdates(env.secondPassLines, d))
  {
    StagesFollowCode(sizeMb, input, output, env);
  }

  /**
   A video longer than the 25 MB preset's budget can carry still gets its
   first pass, with a negative bitrate: nothing rejects a plan that cannot work.
   */
  lemma LongVideoIsStillEncoded(input: string, output: string, env: Environment)
    requires Probe.ProbeDuration(env.probeLines) == 1100000
    requires env.inputLength > 25690112
    ensures var ls := CompressVideo(24.5, input, output, env).launched;
            |ls| >= 1 && ls[0].pass == FirstPass && ls[0].bitrate < 0.0
  {
    StagesFollowCode(24.5, input, output, env);
    Planner.LongVideoGetsNegativeBitrate();
  }

  /** A whole program run: refused at the command line, or a compression that ran to an outcome. */
  datatype Session =
    | Rejected(error: CommandLine.CliError)
    | Ran(request: CommandLine.Request, final: State)

  /**
   `Main`: parse the arguments, then compress. The overwrite prompt of
   lines 58-89 is taken as accepted (or not shown, when no output file
   exists yet).
   */
  function RunProgram(args: seq<string>, env: Environment): (s: Session)
    ensures s.Rejected? <==>
              || |args| < 2
              || CommandLine.Preset(args[0]).None?
              || Paths.GetDirectoryName(CommandLine.JoinSpaces(args[1..])).None?
    ensures s.Rejected? ==>
              s.error == if |args| < 2 then CommandLine.MissingArguments
                         else if CommandLine.Preset(args[0]).None? then CommandLine.InvalidSize
                         else CommandLine.NoDirectory
    ensures s.Ran? ==> && |args| >= 2
                       && CommandLine.Preset(args[0]) == Some(s.request.sizeMb)
                       && s.request.input == CommandLine.JoinSpaces(args[1..])
                       && Paths.OutputPath(s.request.input) == Some(s.request.output)
                       && s.final == CompressVideo(s.request.sizeMb, s.request.input, s.request.output, env)
  {
    match CommandLine.ParseArgs(args)
    case Failure(e) => Rejected(e)
    case Success(req) => Ran(req, CompressVideo(req.sizeMb, req.input, req.output, env))
  }

  /** The encoder processes a program run starts. */
  function SessionLaunches(s: Session): (ls: seq<Launch>) {
    match s
    case Rejected(_) => []
    case Ran(_, f) => f.launched
  }

  /**
   An encoder pass is started only for a valid command line naming a preset,
   a video of known duration and an input larger than the preset's budget;
   the second pass then writes to the output path derived from the input.
   */
  lemma LaunchesNeedValidRequest(args: seq<string>, env: Environment)
    ensures var ls := SessionLaunches(RunProgram(args, env));
            |ls| > 0 ==>
              && |args| >= 2
              && CommandLine.Preset(args[0]).Some?
              && Probe.ProbeDuration(env.probeLines) > 0
              && !Planner.AlreadyUnderTarget(env.inputLength, CommandLine.Preset(args[0]).value)
              && ls[0].source == CommandLine.JoinSpaces(args[1..])
    ensures var ls := SessionLaunches(RunProgram(args, env));
            |ls| == 2 ==> Paths.OutputPath(CommandLine.JoinSpaces(args[1..])) == Some(ls[1].destination)
  {
    var s := RunProgram(args, env);
    if s.Ran? {
      LaunchesOfRun(s.request.sizeMb, s.request.input, s.request.output, env);
      OutcomeOfRun(s.request.sizeMb, s.request.input, s.request.output, env);
    }
  }
}

=== FILE: paths.dfy ===
/**
 Output-path derivation: `Path.Combine(Path.GetDirectoryName(input),
 Path.GetFileNameWithoutExtension(input) + "_compressed.mp4")`, with the
 four path functions modelled after their Windows behaviour in .NET: both
 `\` and `/` separate directories, a path may start with a drive (`C:` or
 `C:\`) or a single separator, `GetDirectoryName` gives `null` for an empty
 (all blank) path or a bare root, and `Path.Combine` throws on `null`.
 */
module Paths {
  import opened Wrappers

  const CompressedSuffix: string := "_compressed.mp4"

  predicate IsSeparator(c: char) {
    c == '\\' || c == '/'
  }

  predicate IsDriveLetter(c: char) {
    'A' <= c <= 'Z' || 'a' <= c <= 'z'
  }

  /** Length of the root: `C:\` (3), `C:` (2), a leading separator (1), or none (0). */
  function RootLength(p: string): (n: nat)
    ensures n <= |p| && n <= 3
    ensures n == 1 ==> IsSeparator(p[0])
    ensures n >= 2 ==> IsDriveLetter(p[0]) && p[1] == ':'
    ensures n == 3 ==> IsSeparator(p[2])
  {
    if |p| >= 2 && IsDriveLetter(p[0]) && p[1] == ':' then
      (if |p| >= 3 && IsSeparator(p[2]) then 3 else 2)
    else if |p| >= 1 && IsSeparator(p[0]) then 1
    else 0
  }

  /** Empty or made only of blanks: `GetDirectoryName` answers `null`. */
  predicate IsEffectivelyEmpty(p: string) {
    forall k :: 0 <= k < |p| ==> p[k] == ' '
  }

  /** The last position below `hi` holding a separator. */
  function LastSeparatorBefore(p: string, hi: nat): (r: Option<nat>)
    requires hi <= |p|
    ensures r.Some? ==> r.value < hi && IsSeparator(p[r.value])
    ensures r.Some? ==> forall k :: r.value < k < hi ==> !IsSeparator(p[k])
    ensures r.None? ==> forall k :: 0 <= k < hi ==> !IsSeparator(p[k])
  {
    if hi == 0 then None
    else if IsSeparator(p[hi - 1]) then Some(hi - 1)
    else LastSeparatorBefore(p, hi - 1)
  }

  /** The last position below `hi` holding a period. */
  function LastPeriodBefore(s: string, hi: nat): (r: Option<nat>)
    requires hi <= |s|
    ensures r.Some? ==> r.value < hi && s[r.value] == '.'
    ensures r.Some? ==> forall k :: r.value < k < hi ==> s[k] != '.'
    ensures r.None? ==> forall k :: 0 <= k < hi ==> s[k] != '.'
  {
    if hi == 0 then None
    else if s[hi - 1] == '.' then Some(hi - 1)
    else LastPeriodBefore(s, hi - 1)
  }

  /** Step back over separators that end `p[..end]`, but never into the root. */
  function TrimSeparators(p: string, root: nat, end: nat): (r: nat)
    requires root <= end <= |p|
    ensures root <= r <= end
    ensures r == root || !IsSeparator(p[r - 1])
    ensures forall k :: r <= k < end ==> IsSeparator(p[k])
  {
    if end > root && IsSeparator(p[end - 1]) then TrimSeparators(p, root, end - 1) else end
  }

  /** Where the directory part of `p` ends, or `None` when `p` is no longer than its root. */
  function DirectoryEnd(p: string): (r: Option<nat>)
    ensures r.Some? ==> RootLength(p) <= r.value < |p|
  {
    var root := RootLength(p);
    if |p| <= root then None
    else
      var cut := match LastSeparatorBefore(p, |p|)
                 case Some(j) => if j >= root then j else root
                 case None => root;
      Some(TrimSeparators(p, root, cut))
  }

  /** Every run of separators after the first character becomes one `\`; a leading separator stays. */
  function Collapse(t: string): (r: string)
    ensures |r| <= |t|
  {
    if |t| == 0 then ""
    else
      var keep := if IsSeparator(t[0]) && |t| > 1 && IsSeparator(t[1]) then ""
                  else if IsSeparator(t[0]) then "\\" else [t[0]];
      keep + Collapse(t[1..])
  }

  /** The separator normalisation `GetDirectoryName` applies to its result. */
  function NormalizeSeparators(s: string): (r: string)
    ensures |r| <= |s|
  {
    if |s| > 0 && IsSeparator(s[0]) then "\\" + Collapse(s[1..]) else Collapse(s)
  }

  /** `Path.GetDirectoryName`; `None` is its `null`. */
  function GetDirectoryName(p: string): (r: Option<string>)
    ensures r.None? <==> IsEffectivelyEmpty(p) || |p| <= RootLength(p)
    ensures r.Some? ==> |r.value| < |p|
  {
    if IsEffectivelyEmpty(p) then None
    else
      match DirectoryEnd(p)
      case None => None
      case Some(e) => Some(NormalizeSeparators(p[..e]))
  }

  /** Where the file name of `p` starts: after the last separator, and never inside the root. */
  function FileNameStart(p: string): (n: nat)
    ensures RootLength(p) <= n <= |p|
    ensures forall k :: n <= k < |p| ==> !IsSeparator(p[k])
  {
    var root := RootLength(p);
    match LastSeparatorBefore(p, |p|)
    case None => root
    case Some(i) => if i < root then root else i + 1
  }

  /** `Path.GetFileName`. */
  function GetFileName(p: string): (name: string)
    ensures forall k :: 0 <= k < |name| ==> !IsSeparator(name[k])
  {
    p[FileNameStart(p)..]
  }

  /** `Path.GetFileNameWithoutExtension`: the file name cut at its last period. */
  function GetFileNameWithoutExtension(p: string): (stem: string)
    ensures forall k :: 0 <= k < |stem| ==> !IsSeparator(stem[k])
    ensures stem <= GetFileName(p)
    ensures |stem| == |GetFileName(p)| ==> forall k :: 0 <= k < |stem| ==> stem[k] != '.'
    ensures |stem| < |GetFileName(p)| ==>
              && GetFileName(p)[|stem|] == '.'
              && forall k :: |stem| < k < |GetFileName(p)| ==> GetFileName(p)[k] != '.'
  {
    var name := GetFileName(p);
    match LastPeriodBefore(name, |name|)
    case None => name
    case Some(i) => name[..i]
  }

  /** `Path.IsPathRooted`: a leading separator or a drive. */
  predicate IsPathRooted(s: string) {
    (|s| >= 1 && IsSeparator(s[0])) || (|s| >= 2 && IsDriveLetter(s[0]) && s[1] == ':')
  }

  predicate EndsWith(s: string, t: string) {
    |s| >= |t| && s[|s| - |t|..] == t
  }

  lemma EndsWithTransitive(s: string, b: string, t: string)
    requires EndsWith(s, b) && EndsWith(b, t)
    ensures EndsWith(s, t)
  {
    assert s[|s| - |t|..] == s[|s| - |b|..][|b| - |t|..];
  }

  /** `Path.Combine` of two non-null paths. */
  function Combine(a: string, b: string): (r: string)
    ensures |b| > 0 ==> EndsWith(r, b)
    ensures |b| == 0 ==> r == a
    ensures |a| == 0 || IsPathRooted(b) ==> r == b
    ensures |a| > 0 && |b| > 0 && !IsPathRooted(b) ==>
              && |a| + |b| <= |r| <= |a| + |b| + 1
              && r[..|a|] == a
              && (|r| == |a| + |b| <==> IsSeparator(a[|a| - 1]) || IsSeparator(b[0]))
              && (|r| == |a| + |b| + 1 ==> r[|a|] == '\\')
  {
    if |a| == 0 then b
    else if |b| == 0 then a
    else if IsPathRooted(b) then b
    else if IsSeparator(a[|a| - 1]) || IsSeparator(b[0]) then a + b
    else a + "\\" + b
  }

  /** The file name the compressed video gets. */
  function NewFileName(input: string): (name: string)
    ensures |name| == |GetFileNameWithoutExtension(input)| + |CompressedSuffix|
    ensures name[..|GetFileNameWithoutExtension(input)|] == GetFileNameWithoutExtension(input)
    ensures EndsWith(name, CompressedSuffix)
  {
    GetFileNameWithoutExtension(input) + CompressedSuffix
  }

  /** The output path derived from the input path; `None` when `Path.Combine` throws on a `null` directory. */
  function OutputPath(input: string): (r: Option<string>)
    ensures r.Some? <==> GetDirectoryName(input).Some?
    ensures r.Some? ==> EndsWith(r.value, CompressedSuffix)
  {
    match GetDirectoryName(input)
    case None => None
    case Some(dir) =>
      var name := NewFileName(input);
      var out := Combine(dir, name);
      assert EndsWith(name, CompressedSuffix);
      EndsWithTransitive(out, name, CompressedSuffix);
      Some(out)
  }

  /** The file name of a path ending in `<separator><name>` is `name`. */
  lemma FileNameAfterSeparator(prefix: string, b: string)
    requires |prefix| > 0 && IsSeparator(prefix[|prefix| - 1])
    requires forall k :: 0 <= k < |b| ==> !IsSeparator(b[k])
    ensures GetFileName(prefix + b) == b
  {
    var out := prefix + b;
    var n := |prefix|;
    assert IsSeparator(out[n - 1]);
    assert forall k :: n <= k < |out| ==> out[k] == b[k - n];
    var last := LastSeparatorBefore(out, |out|);
    assert last == Some(n - 1);
    assert RootLength(out) <= n;
    assert out[n..] == b;
  }

  /**
   The output keeps the input's file name without its extension and adds
   `_compressed.mp4`, unless that new name itself looks like a drive path
   (`a:…`), in which case `Path.Combine` returns it alone.
   */
  lemma OutputFileName(input: string)
    requires OutputPath(input).Some?
    requires !IsPathRooted(NewFileName(input))
    ensures GetFileName(OutputPath(input).value) == NewFileName(input)
  {
    var dir := GetDirectoryName(input).value;
    var b := NewFileName(input);
    NewFileNameFacts(input);
    assert OutputPath(input).value == Combine(dir, b);
    CombinedFileName(dir, b);
  }

  /** The new file name is non-blank, has no separators and ends in `4`. */
  lemma NewFileNameFacts(input: string)
    ensures var b := NewFileName(input);
            && |b| >= |CompressedSuffix|
            && (forall k :: 0 <= k < |b| ==> !IsSeparator(b[k]))
            && b[|b| - 1] == '4'
  {
    var stem := GetFileNameWithoutExtension(input);
    var b := NewFileName(input);
    forall k | 0 <= k < |b| ensures !IsSeparator(b[k]) {
      if k >= |stem| { assert b[k] == CompressedSuffix[k - |stem|]; }
    }
    assert b[|b| - 1] == CompressedSuffix[|CompressedSuffix| - 1];
  }

  /** Combining a directory with a plain relative name gives a path whose file name is that name. */
  lemma CombinedFileName(dir: string, b: string)
    requires |b| > 0 && !IsPathRooted(b)
    requires forall k :: 0 <= k < |b| ==> !IsSeparator(b[k])
    ensures GetFileName(Combine(dir, b)) == b
  {
    if |dir| == 0 {
      assert LastSeparatorBefore(b, |b|).None?;
      assert RootLength(b) == 0;
      assert b[0..] == b;
    } else if IsSeparator(dir[|dir| - 1]) {
      FileNameAfterSeparator(dir, b);
    } else {
      assert dir + "\\" + b == (dir + "\\") + b;
      FileNameAfterSeparator(dir + "\\", b);
    }
  }

  /** Only `\` separators, never two in a row: what `Collapse` leaves alone. */
  predicate Normalized(s: string) {
    && (forall k :: 0 <= k < |s| ==> s[k] != '/')
    && (forall k :: 0 <= k < |s| - 1 ==> !(s[k] == '\\' && s[k + 1] == '\\'))
  }

  lemma {:induction false} CollapseKeepsNormalized(t: string)
    requires Normalized(t)
    ensures Collapse(t) == t
  {
    if |t| > 0 {
      assert Normalized(t[1..]) by {
        assert forall k :: 0 <= k < |t| - 1 ==> t[1..][k] == t[k + 1];
      }
      CollapseKeepsNormalized(t[1..]);
      assert [t[0]] + t[1..] == t;
    }
  }

  /** A collapsed string starts with `\` where the original starts with a separator, and with the same character otherwise. */
  lemma {:induction false} CollapseHead(t: string)
    requires |t| > 0
    ensures |Collapse(t)| > 0
    ensures Collapse(t)[0] == if IsSeparator(t[0]) then '\\' else t[0]
  {
    if IsSeparator(t[0]) && |t| > 1 && IsSeparator(t[1]) {
      CollapseHead(t[1..]);
    }
  }

  /** A final non-separator survives collapsing as the final character. */
  lemma {:induction false} CollapseLast(t: string)
    requires |t| > 0 && !IsSeparator(t[|t| - 1])
    ensures |Collapse(t)| > 0 && Collapse(t)[|Collapse(t)| - 1] == t[|t| - 1]
  {
    if |t| > 1 {
      assert t[1..][|t| - 2] == t[|t| - 1];
      CollapseLast(t[1..]);
    }
  }

  lemma NormalizedCons(c: char, r: string)
    requires Normalized(r) && c != '/'
    requires c == '\\' && |r| > 0 ==> r[0] != '\\'
    ensures Normalized([c] + r)
  {
    var s := [c] + r;
    assert forall k :: 1 <= k < |s| ==> s[k] == r[k - 1];
  }

  /** Collapsing leaves only `\` separators, never two in a row. */
  lemma {:induction false} CollapseNormalized(t: string)
    ensures Normalized(Collapse(t))
  {
    if |t| > 0 {
      var rest := Collapse(t[1..]);
      CollapseNormalized(t[1..]);
      if IsSeparator(t[0]) && |t| > 1 && IsSeparator(t[1]) {
        assert Collapse(t) == rest;
      } else if IsSeparator(t[0]) {
        if |t| > 1 { CollapseHead(t[1..]); }
        NormalizedCons('\\', rest);
      } else {
        NormalizedCons(t[0], rest);
      }
    }
  }

  lemma NormalizeKeepsNormalized(s: string)
    requires Normalized(s)
    ensures NormalizeSeparators(s) == s
  {
    if |s| > 0 {
      assert Normalized(s[1..]) by {
        assert forall k :: 0 <= k < |s| - 1 ==> s[1..][k] == s[k + 1];
      }
      CollapseKeepsNormalized(s[1..]);
      assert [s[0]] + s[1..] == s;
    }
    CollapseKeepsNormalized(s);
  }

  /** Normalising twice is normalising once: a directory name is its own normal form. */
  lemma NormalizeIdempotent(s: string)
    ensures NormalizeSeparators(NormalizeSeparators(s)) == NormalizeSeparators(s)
  {
    var n := NormalizeSeparators(s);
    if |s| > 0 && IsSeparator(s[0]) {
      var c := Collapse(s[1..]);
      CollapseNormalized(s[1..]);
      CollapseKeepsNormalized(c);
      assert n[1..] == c;
    } else if |s| > 0 {
      CollapseNormalized(s);
      CollapseHead(s);
      CollapseKeepsNormalized(n);
    }
  }

  /**
   The compressed file lands in the same directory as the input: the
   output's directory name is the input's, for every input that is not
   drive-relative (`C:name`, see `DriveRelativeInputMovesToRoot`).
   */
  lemma OutputInSameDirectory(input: string)
    requires RootLength(input) != 2
    requires OutputPath(input).Some?
    requires !IsPathRooted(NewFileName(input))
    ensures GetDirectoryName(OutputPath(input).value) == GetDirectoryName(input)
  {
    var n := GetDirectoryName(input).value;
    var b := NewFileName(input);
    NewFileNameFacts(input);
    DirectoryNameShape(input);
    assert OutputPath(input).value == Combine(n, b);
    if |n| == 0 {
      DirectoryOfPlainName(b);
    } else if RootLength(n) == |n| {
      DirectoryOfRootPlusName(n, b);
    } else {
      DirectoryOfDirPlusName(n, b);
    }
  }

  /** A bare file name lies in the directory `""`. */
  lemma DirectoryOfPlainName(b: string)
    requires |b| > 0 && !IsPathRooted(b) && b[|b| - 1] != ' '
    requires forall k :: 0 <= k < |b| ==> !IsSeparator(b[k])
    ensures GetDirectoryName(b) == Some("")
  {
    assert RootLength(b) == 0;
    assert LastSeparatorBefore(b, |b|).None?;
    assert DirectoryEnd(b) == Some(0);
    assert b[..0] == "";
  }

  /** A name directly under a root (`\` or `C:\`) lies in that root. */
  lemma DirectoryOfRootPlusName(d: string, b: string)
    requires |d| > 0 && RootLength(d) == |d| && IsSeparator(d[|d| - 1]) && NormalizeSeparators(d) == d
    requires |b| > 0 && forall k :: 0 <= k < |b| ==> !IsSeparator(b[k])
    ensures GetDirectoryName(d + b) == Some(d)
  {
    var out := d + b;
    var e := |d|;
    assert out[..e] == d;
    assert !IsEffectivelyEmpty(out) by { assert out[0] != ' '; }
    assert RootLength(out) == e;
    assert forall k :: e <= k < |out| ==> out[k] == b[k - e];
    assert LastSeparatorBefore(out, |out|) == Some(e - 1);
    assert DirectoryEnd(out) == Some(e);
  }

  /** A name joined by `\` to a directory that is longer than its root and does not end in a separator lies in that directory. */
  lemma DirectoryOfDirPlusName(d: string, b: string)
    requires RootLength(d) < |d| && !IsSeparator(d[|d| - 1]) && NormalizeSeparators(d) == d
    requires |b| > 0 && forall k :: 0 <= k < |b| ==> !IsSeparator(b[k])
    ensures GetDirectoryName(d + "\\" + b) == Some(d)
  {
    var out := d + "\\" + b;
    var e := |d|;
    assert out[..e] == d;
    assert out[e] == '\\';
    assert !IsEffectivelyEmpty(out) by { assert out[e] != ' '; }
    assert RootLength(out) < e;
    assert forall k :: e < k < |out| ==> out[k] == b[k - e - 1];
    assert LastSeparatorBefore(out, |out|) == Some(e);
    assert DirectoryEnd(out) == Some(e);
  }

  /**
   The directory name of a path that is not drive-relative is its own
   normal form, and is either empty, a root ending in a separator, or
   longer than its root and ending in a non-separator.
   */
  lemma DirectoryNameShape(p: string)
    requires RootLength(p) != 2
    requires GetDirectoryName(p).Some?
    ensures var n := GetDirectoryName(p).value;
            && NormalizeSeparators(n) == n
            && (|n| == 0
                || (RootLength(n) == |n| && IsSeparator(n[|n| - 1]))
                || (RootLength(n) < |n| && !IsSeparator(n[|n| - 1])))
  {
    var root := RootLength(p);
    var e := DirectoryEnd(p).value;
    var d := p[..e];
    var n := NormalizeSeparators(d);
    assert GetDirectoryName(p) == Some(n);
    NormalizeIdempotent(d);
    if e == 0 {
    } else if e == root {
      RootOnlyDirectory(p);
    } else {
      assert !IsSeparator(d[e - 1]);
      if root == 0 {
        RelativeDirectory(d);
      } else if root == 1 {
        SeparatorRootedDirectory(d);
      } else {
        assert d[..3] == p[..3];
        DriveRootedDirectory(d);
      }
    }
  }

  /** A directory part that is just the root `\` or `C:\` normalises to a root ending in `\`. */
  lemma RootOnlyDirectory(p: string)
    requires RootLength(p) == 1 || RootLength(p) == 3
    requires DirectoryEnd(p) == Some(RootLength(p))
    ensures var n := NormalizeSeparators(p[..RootLength(p)]);
            RootLength(n) == |n| && |n| > 0 && n[|n| - 1] == '\\'
  {
    var d := p[..RootLength(p)];
    if |d| == 1 {
      assert NormalizeSeparators(d) == "\\";
    } else {
      assert d[1..][1..] == [d[2]];
      assert Collapse([d[2]]) == "\\";
      assert Collapse(d[1..]) == [':'] + "\\";
      assert NormalizeSeparators(d) == [d[0], ':', '\\'];
    }
  }

  /** A relative directory part ending in a non-separator stays longer than its (empty) root. */
  lemma RelativeDirectory(d: string)
    requires |d| > 0 && RootLength(d) == 0 && !IsSeparator(d[|d| - 1])
    ensures var n := NormalizeSeparators(d);
            RootLength(n) < |n| && !IsSeparator(n[|n| - 1])
  {
    var n := NormalizeSeparators(d);
    assert n == Collapse(d);
    CollapseLast(d);
    CollapseHead(d);
    if |d| >= 2 {
      assert n == [d[0]] + Collapse(d[1..]);
      CollapseHead(d[1..]);
      assert n[1] == Collapse(d[1..])[0];
    }
  }

  /** A separator-rooted directory part ending in a non-separator stays longer than its root `\`. */
  lemma SeparatorRootedDirectory(d: string)
    requires |d| >= 2 && IsSeparator(d[0]) && !IsSeparator(d[|d| - 1])
    ensures var n := NormalizeSeparators(d);
            RootLength(n) < |n| && !IsSeparator(n[|n| - 1])
  {
    var c := Collapse(d[1..]);
    assert d[1..][|d| - 2] == d[|d| - 1];
    CollapseLast(d[1..]);
    var n := "\\" + c;
    assert n[|n| - 1] == c[|c| - 1];
    assert RootLength(n) == 1;
  }

  /** A drive-rooted directory part `C:\…` ending in a non-separator stays longer than its root `C:\`. */
  lemma DriveRootedDirectory(d: string)
    requires |d| >= 4 && RootLength(d) == 3 && !IsSeparator(d[|d| - 1])
    ensures var n := NormalizeSeparators(d);
            RootLength(n) < |n| && !IsSeparator(n[|n| - 1])
  {
    var t := d[2..];
    assert t[|t| - 1] == d[|d| - 1];
    CollapseHead(t);
    CollapseLast(t);
    var c := Collapse(t);
    assert |c| >= 2 && c[0] == '\\' && !IsSeparator(c[|c| - 1]);
    CollapseNonSeparator(d);
    CollapseNonSeparator(d[1..]);
    assert d[1..][1..] == t;
    var n := [d[0]] + ([':'] + c);
    assert NormalizeSeparators(d) == n;
    assert n[2] == c[0];
    assert n[|n| - 1] == c[|c| - 1];
  }

  /** A non-separator is kept in front of the collapsed rest. */
  lemma CollapseNonSeparator(t: string)
    requires |t| > 0 && !IsSeparator(t[0])
    ensures Collapse(t) == [t[0]] + Collapse(t[1..])
  {
  }

  /** Collapsing works piecewise across a cut just after a non-separator. */
  lemma {:induction false} CollapseConcat(a: string, b: string)
    requires |a| > 0 && !IsSeparator(a[|a| - 1])
    ensures Collapse(a + b) == Collapse(a) + Collapse(b)
  {
    if |a| == 1 {
      assert (a + b)[1..] == b;
    } else {
      assert (a + b)[1..] == a[1..] + b;
      CollapseConcat(a[1..], b);
    }
  }

  /** In `prefix + b` with no separator in `b`, the last separator is the one ending `prefix`. */
  lemma LastSeparatorOfJoin(prefix: string, b: string)
    requires |prefix| > 0 && IsSeparator(prefix[|prefix| - 1])
    requires forall k :: 0 <= k < |b| ==> !IsSeparator(b[k])
    ensures LastSeparatorBefore(prefix + b, |prefix + b|) == Some(|prefix| - 1)
  {
    var out := prefix + b;
    assert IsSeparator(out[|prefix| - 1]);
    assert forall k :: |prefix| <= k < |out| ==> out[k] == b[k - |prefix|];
  }

  /** A typical Windows path: the last extension goes, the directory stays. */
  lemma OutputPathExample()
    ensures OutputPath("C:\\Videos\\clip.final.mov") == Some("C:\\Videos\\clip.final_compressed.mp4")
  {
    ExampleDirectory();
    ExampleNewName();
    ExampleCombine();
  }

  lemma ExampleNewName()
    ensures NewFileName("C:\\Videos\\clip.final.mov") == "clip.final_compressed.mp4"
  {
    ExampleStem();
    NewFileNameOfStem("C:\\Videos\\clip.final.mov", "clip.final");
    ExampleSuffixed();
  }

  lemma ExampleSuffixed()
    ensures "clip.final" + CompressedSuffix == "clip.final_compressed.mp4"
  {
  }

  lemma NewFileNameOfStem(input: string, stem: string)
    requires GetFileNameWithoutExtension(input) == stem
    ensures NewFileName(input) == stem + CompressedSuffix
  {
  }

  lemma ExampleCombine()
    ensures Combine("C:\\Videos", "clip.final_compressed.mp4") == "C:\\Videos\\clip.final_compressed.mp4"
  {
    CombineInsertsSeparator("C:\\Videos", "clip.final_compressed.mp4");
    ExampleJoined();
  }

  lemma ExampleJoined()
    ensures "C:\\Videos" + "\\" + "clip.final_compressed.mp4" == "C:\\Videos\\clip.final_compressed.mp4"
  {
  }

  /** Two non-empty parts, the second relative, neither with a separator at the seam: `Path.Combine` puts `\` between them. */
  lemma CombineInsertsSeparator(a: string, b: string)
    requires |a| > 0 && |b| > 0 && !IsPathRooted(b)
    requires !IsSeparator(a[|a| - 1]) && !IsSeparator(b[0])
    ensures Combine(a, b) == a + "\\" + b
  {
  }

  lemma ExampleDirectory()
    ensures GetDirectoryName("C:\\Videos\\clip.final.mov") == Some("C:\\Videos")
  {
    ExampleNotBlank();
    ExampleDirectoryEnd();
    ExampleNormalized();
    assert "C:\\Videos\\clip.final.mov"[..9] == "C:\\Videos";
  }

  lemma ExampleNotBlank()
    ensures !IsEffectivelyEmpty("C:\\Videos\\clip.final.mov")
  {
    assert "C:\\Videos\\clip.final.mov"[0] == 'C';
  }

  lemma ExampleLastSeparator()
    ensures LastSeparatorBefore("C:\\Videos\\clip.final.mov", 23) == Some(9)
  {
    assert "C:\\Videos\\clip.final.mov" == "C:\\Videos\\" + "clip.final.mov";
    LastSeparatorOfJoin("C:\\Videos\\", "clip.final.mov");
  }

  lemma ExampleDirectoryEnd()
    ensures DirectoryEnd("C:\\Videos\\clip.final.mov") == Some(9)
  {
    ExampleLastSeparator();
  }

  lemma ExampleNormalized()
    ensures NormalizeSeparators("C:\\Videos") == "C:\\Videos"
  {
    CollapseConcat("C:\\V", "ideos");
    assert "C:\\V" + "ideos" == "C:\\Videos";
  }

  lemma ExampleStem()
    ensures GetFileNameWithoutExtension("C:\\Videos\\clip.final.mov") == "clip.final"
  {
    ExampleLastSeparator();
    assert FileNameStart("C:\\Videos\\clip.final.mov") == 10;
    assert "C:\\Videos\\clip.final.mov"[10..] == "clip.final.mov";
    assert LastPeriodBefore("clip.final.mov", 14) == Some(10);
  }

  /** A bare drive root has no directory name, so deriving the output path throws. */
  lemma DriveRootHasNoOutput()
    ensures OutputPath("C:\\") == None
  {
    assert RootLength("C:\\") == 3;
    assert GetDirectoryName("C:\\").None?;
  }

  /**
   A drive-relative input `C:clip.mp4` has directory name `C:`, and combining
   adds a separator: the output goes to the root of drive C, not to the
   drive's current directory where the input is.
   */
  lemma DriveRelativeInputMovesToRoot()
    ensures GetDirectoryName("C:clip.mp4") == Some("C:")
    ensures OutputPath("C:clip.mp4") == Some("C:\\clip_compressed.mp4")
    ensures GetDirectoryName("C:\\clip_compressed.mp4") == Some("C:\\")
  {
    DriveRelativeDirectory();
    DriveRelativeNewName();
    DriveRelativeCombine();
    DriveRootDirectory();
  }

  lemma DriveRelativeNewName()
    ensures NewFileName("C:clip.mp4") == "clip_compressed.mp4"
  {
    DriveRelativeStem();
    NewFileNameOfStem("C:clip.mp4", "clip");
    assert "clip" + CompressedSuffix == "clip_compressed.mp4";
  }

  lemma DriveRelativeCombine()
    ensures Combine("C:", "clip_compressed.mp4") == "C:\\clip_compressed.mp4"
  {
    CombineInsertsSeparator("C:", "clip_compressed.mp4");
    assert "C:" + "\\" + "clip_compressed.mp4" == "C:\\clip_compressed.mp4";
  }

  lemma DriveRelativeDirectory()
    ensures GetDirectoryName("C:clip.mp4") == Some("C:")
  {
    assert "C:clip.mp4"[0] == 'C';
    assert LastSeparatorBefore("C:clip.mp4", 10).None?;
    assert DirectoryEnd("C:clip.mp4") == Some(2);
    assert "C:clip.mp4"[..2] == "C:";
    assert NormalizeSeparators("C:") == "C:";
  }

  lemma DriveRelativeStem()
    ensures GetFileNameWithoutExtension("C:clip.mp4") == "clip"
  {
    assert LastSeparatorBefore("C:clip.mp4", 10).None?;
    assert FileNameStart("C:clip.mp4") == 2;
    assert "C:clip.mp4"[2..] == "clip.mp4";
    assert LastPeriodBefore("clip.mp4", 8) == Some(4);
  }

  lemma DriveRootLastSeparator()
    ensures LastSeparatorBefore("C:\\clip_compressed.mp4", 22) == Some(2)
  {
    assert "C:\\clip_compressed.mp4" == "C:\\" + "clip_compressed.mp4";
    LastSeparatorOfJoin("C:\\", "clip_compressed.mp4");
  }

  lemma DriveRootDirectory()
    ensures GetDirectoryName("C:\\clip_compressed.mp4") == Some("C:\\")
  {
    assert "C:\\clip_compressed.mp4"[0] == 'C';
    DriveRootDirectoryEnd();
    DriveRootPrefix();
    assert NormalizeSeparators("C:\\") == "C:\\";
  }


  lemma DriveRootDirectoryEnd()
    ensures DirectoryEnd("C:\\clip_compressed.mp4") == Some(3)
  {
    DriveRootLastSeparator();
  }

  lemma DriveRootPrefix()
    ensures "C:\\clip_compressed.mp4"[..3] == "C:\\"
  {
  }
}

=== FILE: planner.dfy ===
/**
 Bitrate planning. The target size in megabytes becomes bytes
 (`size * 1024 * 1024`), the input is refused when it is not larger than
 that, and the video bitrate is the whole budget in bits spread over the
 duration, less a fixed 192 * 1024 bits per second for the audio track.
 The audio figure is a constant, not a probed value, and the result is
 neither clamped nor checked for being positive.
 */
module Planner {

  /** Bits per second reserved for audio: `192 * 1024`. */
  const AudioAllowance: real := 196608.0

  const BytesPerMegabyte: real := 1048576.0

  /** The size budget in bytes. */
  function TargetBytes(sizeMb: real): (bytes: real)
    ensures sizeMb >= 0.0 ==> bytes >= sizeMb
    ensures bytes / BytesPerMegabyte == sizeMb
  {
    sizeMb * 1024.0 * 1024.0
  }

  /** The input is not larger than the budget, so compressing it is refused. */
  function AlreadyUnderTarget(inputLength: nat, sizeMb: real): (under: bool)
    ensures under <==> inputLength as real / BytesPerMegabyte <= sizeMb
  {
    inputLength as real <= TargetBytes(sizeMb)
  }

  /** `(target * 8) / seconds - 192 * 1024`, the `-b:v` value handed to both passes. */
  function VideoBitrate(sizeMb: real, durationMs: nat): (bps: real)
    requires durationMs > 0
    ensures (bps + AudioAllowance) * (durationMs as real / 1000.0) == TargetBytes(sizeMb) * 8.0
  {
    var seconds := durationMs as real / 1000.0;
    (TargetBytes(sizeMb) * 8.0) / seconds - AudioAllowance
  }

  /** The planned video and audio rates together spend exactly the byte budget over the video's length. */
  lemma BitrateSpendsBudget(sizeMb: real, durationMs: nat)
    requires durationMs > 0
    ensures (VideoBitrate(sizeMb, durationMs) + AudioAllowance) * (durationMs as real) / 8000.0 == TargetBytes(sizeMb)
  {
    var b := VideoBitrate(sizeMb, durationMs);
    var d := durationMs as real;
    assert (b + AudioAllowance) * (d / 1000.0) == TargetBytes(sizeMb) * 8.0;
    assert (b + AudioAllowance) * d == TargetBytes(sizeMb) * 8000.0;
  }

  /** The bitrate is non-positive exactly when the audio allowance alone uses up the budget; nothing stops that case. */
  lemma NonPositiveBitrateIff(sizeMb: real, durationMs: nat)
    requires durationMs > 0
    ensures VideoBitrate(sizeMb, durationMs) <= 0.0 <==> TargetBytes(sizeMb) * 8000.0 <= AudioAllowance * (durationMs as real)
  {
    var b := VideoBitrate(sizeMb, durationMs);
    var d := durationMs as real;
    assert (b + AudioAllowance) * d == TargetBytes(sizeMb) * 8000.0 by {
      assert (b + AudioAllowance) * (d / 1000.0) == TargetBytes(sizeMb) * 8.0;
    }
    assert b * d == TargetBytes(sizeMb) * 8000.0 - AudioAllowance * d;
    if b <= 0.0 {
      assert b * d <= 0.0;
    } else {
      assert b * d > 0.0;
    }
  }

  /** A longer video gets a lower (or equal) bitrate for the same size budget. */
  lemma BitrateFallsWithDuration(sizeMb: real, d1: nat, d2: nat)
    requires sizeMb >= 0.0 && 0 < d1 <= d2
    ensures VideoBitrate(sizeMb, d2) <= VideoBitrate(sizeMb, d1)
  {
    var budget := TargetBytes(sizeMb) * 8000.0;
    var r1 := VideoBitrate(sizeMb, d1) + AudioAllowance;
    var r2 := VideoBitrate(sizeMb, d2) + AudioAllowance;
    var x1 := d1 as real;
    var x2 := d2 as real;
    BitrateSpendsBudget(sizeMb, d1);
    BitrateSpendsBudget(sizeMb, d2);
    assert r1 * x1 == budget && r2 * x2 == budget;
    assert r1 >= 0.0;
    assert r1 * x2 - r1 * x1 == r1 * (x2 - x1);
    assert r1 * (x2 - x1) >= 0.0;
    assert (r1 - r2) * x2 == r1 * x2 - r2 * x2;
    assert (r1 - r2) * x2 >= 0.0;
    assert r1 - r2 >= 0.0;
  }

  /** A larger size budget gets a higher (or equal) bitrate for the same video. */
  lemma BitrateGrowsWithSize(s1: real, s2: real, durationMs: nat)
    requires s1 <= s2 && durationMs > 0
    ensures VideoBitrate(s1, durationMs) <= VideoBitrate(s2, durationMs)
  {
    var seconds := durationMs as real / 1000.0;
    assert TargetBytes(s1) * 8.0 <= TargetBytes(s2) * 8.0;
    assert (TargetBytes(s1) * 8.0) / seconds <= (TargetBytes(s2) * 8.0) / seconds;
  }

  /** With the 25 MB preset (24.5 MB), an 18 minute 20 second video is planned at a negative bitrate. */
  lemma LongVideoGetsNegativeBitrate()
    ensures VideoBitrate(24.5, 1100000) < 0.0
  {
    NonPositiveBitrateIff(24.5, 1100000);
    assert TargetBytes(24.5) * 8000.0 < AudioAllowance * 1100000.0;
  }
}

=== FILE: probe.dfy ===
/**
 Duration probing. The encoder is run as `ffmpeg -i "<input>"` and every line
 it writes to standard error reaches a handler that skips null or empty lines
 and, when a line matches `Duration: HH:MM:SS.CC`, overwrites the duration.
 The lines arrive here as a sequence (`None` is the null line that ends the
 stream); the duration is whole milliseconds and 0 means "not found".
 */
module Probe {
  import opened Wrappers
  import opened Timestamp

  const DurationKey: string := "Duration: "

  /** The duration a single standard-error line reports, if it reports one. */
  function LineDuration(line: Option<string>): (d: Option<nat>)
    ensures d.Some? ==> d.value <= MaxStampMillis
  {
    if line.None? || |line.value| == 0 then None
    else Scan(line.value, DurationKey)
  }

  /** A line reports a duration exactly when `Duration: HH:MM:SS.CC` occurs in it, and it is the time of the leftmost occurrence. */
  lemma LineDurationIsLeftmostMatch(line: Option<string>)
    ensures LineDuration(line).Some? <==> line.Some? && exists i: nat :: MatchesAt(line.value, DurationKey, i)
    ensures LineDuration(line).Some? ==>
              exists i: nat :: && MatchesAt(line.value, DurationKey, i)
                               && LineDuration(line).value == StampMillis(line.value, i + |DurationKey|)
                               && forall j: nat :: j < i ==> !MatchesAt(line.value, DurationKey, j)
  {
    if line.Some? {
      ScanIsLeftmostMatch(line.value, DurationKey);
    }
  }

  /** No line of the stream reports a duration. */
  predicate NoDurationLine(lines: seq<Option<string>>) {
    forall k :: 0 <= k < |lines| ==> LineDuration(lines[k]).None?
  }

  /** Line `k` reports a duration and no later line does. */
  predicate IsLastDurationLine(lines: seq<Option<string>>, k: int) {
    && 0 <= k < |lines|
    && LineDuration(lines[k]).Some?
    && forall j :: k < j < |lines| ==> LineDuration(lines[j]).None?
  }

  /** The duration the probe settles on, found by searching from the end of the stream. */
  function ProbeDuration(lines: seq<Option<string>>): (ms: nat)
    ensures ms <= MaxStampMillis
  {
    if |lines| == 0 then 0
    else
      match LineDuration(lines[|lines| - 1])
      case Some(d) => d
      case None => ProbeDuration(lines[..|lines| - 1])
  }

  /** The probe reports the duration of the last line that states one, and 0 when no line does. */
  lemma {:induction false} ProbeReportsLastDuration(lines: seq<Option<string>>)
    ensures NoDurationLine(lines) ==> ProbeDuration(lines) == 0
    ensures forall k :: IsLastDurationLine(lines, k) ==> ProbeDuration(lines) == LineDuration(lines[k]).value
  {
    if |lines| > 0 {
      var n := |lines| - 1;
      ProbeOfNonEmpty(lines);
      NoDurationLineSnoc(lines);
      if LineDuration(lines[n]).None? {
        ProbeReportsLastDuration(lines[..n]);
        forall k | IsLastDurationLine(lines, k)
          ensures ProbeDuration(lines) == LineDuration(lines[k]).value
        {
          LastLineOfFront(lines, k);
        }
      } else {
        forall k | IsLastDurationLine(lines, k)
          ensures ProbeDuration(lines) == LineDuration(lines[k]).value
        {
          LastLineIsFinal(lines, k);
        }
      }
    }
  }

  lemma LastLineOfFront(lines: seq<Option<string>>, k: int)
    requires |lines| > 0 && LineDuration(lines[|lines| - 1]).None?
    requires IsLastDurationLine(lines, k)
    ensures IsLastDurationLine(lines[..|lines| - 1], k) && lines[..|lines| - 1][k] == lines[k]
  {
  }

  lemma LastLineIsFinal(lines: seq<Option<string>>, k: int)
    requires |lines| > 0 && LineDuration(lines[|lines| - 1]).Some?
    requires IsLastDurationLine(lines, k)
    ensures k == |lines| - 1
  {
  }

  /**
   The handler's behaviour: one variable, initially 0, overwritten by every
   line that reports a duration, read once the process has exited.
   */
  method GetVideoDuration(lines: seq<Option<string>>) returns (duration: nat)
    ensures duration == ProbeDuration(lines)
  {
    duration := 0;
    var i := 0;
    while i < |lines|
      invariant 0 <= i <= |lines|
      invariant duration == ProbeDuration(lines[..i])
    {
      assert lines[..i + 1][..i] == lines[..i];
      match LineDuration(lines[i]) {
        case Some(d) => duration := d;
        case None =>
      }
      i := i + 1;
    }
    assert lines[..i] == lines;
  }

  /** When some line reports a duration, there is a last such line, and the probe settles on its value. */
  lemma {:induction false} LastDurationLineExists(lines: seq<Option<string>>)
    requires !NoDurationLine(lines)
    ensures exists k :: IsLastDurationLine(lines, k) && ProbeDuration(lines) == LineDuration(lines[k]).value
  {
    var n := |lines| - 1;
    NoDurationLineSnoc(lines);
    var k: int;
    if LineDuration(lines[n]).Some? {
      k := n;
    } else {
      LastDurationLineExists(lines[..n]);
      k :| IsLastDurationLine(lines[..n], k);
      FrontLastLineExtends(lines, k);
    }
    assert IsLastDurationLine(lines, k);
    ProbeReportsLastDuration(lines);
  }

  lemma FrontLastLineExtends(lines: seq<Option<string>>, k: int)
    requires |lines| > 0 && LineDuration(lines[|lines| - 1]).None?
    requires IsLastDurationLine(lines[..|lines| - 1], k)
    ensures IsLastDurationLine(lines, k)
  {
  }

  /** A stream reports no duration exactly when its front reports none and its last line reports none. */
  lemma NoDurationLineSnoc(b: seq<Option<string>>)
    requires |b| > 0
    ensures NoDurationLine(b) <==> NoDurationLine(b[..|b| - 1]) && LineDuration(b[|b| - 1]).None?
  {
    var n := |b| - 1;
    if NoDurationLine(b[..n]) && LineDuration(b[n]).None? {
      forall k | 0 <= k < |b| ensures LineDuration(b[k]).None? {
        if k < n { assert b[k] == b[..n][k]; }
      }
    }
  }

  /** Output that comes later overrides earlier output: a stream split in two is decided by its second half, unless that half reports nothing. */
  lemma {:induction false} LaterLinesOverride(a: seq<Option<string>>, b: seq<Option<string>>)
    ensures !NoDurationLine(b) ==> ProbeDuration(a + b) == ProbeDuration(b)
    ensures NoDurationLine(b) ==> ProbeDuration(a + b) == ProbeDuration(a)
    decreases |b|
  {
    if |b| == 0 {
      assert a + b == a;
    } else {
      var n := |b| - 1;
      AppendThenDropLast(a, b);
      ProbeOfNonEmpty(a + b);
      ProbeOfNonEmpty(b);
      NoDurationLineSnoc(b);
      if LineDuration(b[n]).None? {
        LaterLinesOverride(a, b[..n]);
      }
    }
  }

  lemma AppendThenDropLast(a: seq<Option<string>>, b: seq<Option<string>>)
    requires |b| > 0
    ensures (a + b)[|a + b| - 1] == b[|b| - 1]
    ensures (a + b)[..|a + b| - 1] == a + b[..|b| - 1]
  {
  }

  /** One step of the search from the end. */
  lemma ProbeOfNonEmpty(lines: seq<Option<string>>)
    requires |lines| > 0
    ensures LineDuration(lines[|lines| - 1]).Some? ==> ProbeDuration(lines) == LineDuration(lines[|lines| - 1]).value
    ensures LineDuration(lines[|lines| - 1]).None? ==> ProbeDuration(lines) == ProbeDuration(lines[..|lines| - 1])
  {
  }

  /** Null lines and empty lines never report a duration. */
  lemma BlankLinesReportNothing()
    ensures LineDuration(None).None?
    ensures LineDuration(Some("")).None?
  {
  }

  /** A metadata line reporting 1 minute 30.5 seconds gives 90500 ms. */
  lemma ProbeReadsMetadataLine()
    ensures LineDuration(Some("  Duration: 00:01:30.50, start: 0.000000")) == Some(90500)
  {
    NinetyAndAHalfSeconds();
    MetadataLineParts();
    ScanIndented("  ", DurationKey, 90500, ", start: 0.000000");
  }

  lemma MetadataLineParts()
    ensures "  Duration: 00:01:30.50, start: 0.000000" == "  " + DurationKey + "00:01:30.50" + ", start: 0.000000"
  {
  }

  lemma NinetyAndAHalfSeconds()
    ensures FormatStamp(90500) == "00:01:30.50"
  {
    assert 90500 / MillisPerHour == 0 && 90500 / 60000 % 60 == 1 && 90500 / 1000 % 60 == 30 && 90500 % 1000 / 10 == 50;
    PadExamples();
  }

  /** When the duration is restated, the later statement wins. */
  lemma ProbeTakesRestatedDuration()
    ensures ProbeDuration([Some("Duration: 00:01:30.50"), Some("Duration: 00:02:00.00"), None]) == 120000
  {
    TwoMinuteLine();
    var lines := [Some("Duration: 00:01:30.50"), Some("Duration: 00:02:00.00"), None];
    assert lines[..2][1] == lines[1];
    ProbeOfNonEmpty(lines);
    ProbeOfNonEmpty(lines[..2]);
  }

  lemma TwoMinuteLine()
    ensures LineDuration(Some("Duration: 00:02:00.00")) == Some(120000)
  {
    TwoMinutes();
    assert "Duration: 00:02:00.00" == DurationKey + "00:02:00.00" + "";
    ScanFormatted(DurationKey, 120000, "");
  }

  lemma TwoMinutes()
    ensures FormatStamp(120000) == "00:02:00.00"
  {
    assert 120000 / MillisPerHour == 0 && 120000 / 60000 % 60 == 2 && 120000 / 1000 % 60 == 0 && 120000 % 1000 / 10 == 0;
    PadExamples();
  }

  /** A stream without a duration line gives 0. */
  lemma ProbeWithoutDuration()
    ensures ProbeDuration([Some("Input #0, mov"), Some(""), None]) == 0
  {
    var l := "Input #0, mov";
    forall i: nat ensures !MatchesAt(l, DurationKey, i) {
      if i + |DurationKey| + StampWidth <= |l| {
        assert false;
      }
    }
    FindSkipsNonMatches(l, DurationKey, 0, |l|);
    assert FindFrom(l, DurationKey, |l|).None?;
    assert LineDuration(Some(l)).None?;
    var lines := [Some(l), Some(""), None];
    assert lines[..2][..1] == [Some(l)];
    assert ProbeDuration(lines) == ProbeDuration(lines[..2]);
    assert ProbeDuration(lines[..2]) == ProbeDuration([Some(l)]);
    assert ProbeDuration([Some(l)]) == ProbeDuration([]);
  }
}

=== FILE: progress.dfy ===
/**
 Progress parsing for the second pass. The encoder runs with
 `-progress pipe:2`, so its standard error carries `key=value` status lines;
 each one reaches a handler that ignores null or empty lines and, for a line
 matching `out_time=HH:MM:SS.CC`, computes `elapsed / total * 100` and hands
 the progress window `(int)` of it together with the exact figure (shown with
 two decimals). Nothing is clamped.
 */
module Progress {
  import opened Wrappers
  import opened Timestamp

  const OutTimeKey: string := "out_time="

  /** One call of the progress window's update: the truncated percentage and the exact one behind the message. */
  datatype Update = Update(percent: int, exact: real)

  /** C#'s `(int)` conversion of a real: truncation toward zero. */
  function Truncate(x: real): (n: int)
    ensures x >= 0.0 ==> n as real <= x < n as real + 1.0
    ensures x < 0.0 ==> n as real - 1.0 < x <= n as real
  {
    if x >= 0.0 then x.Floor else -((-x).Floor)
  }

  /** The elapsed time a status line reports, if it is an `out_time` line. */
  function OutTime(line: Option<string>): (t: Option<nat>)
    ensures t.Some? ==> t.value <= MaxStampMillis
    ensures t.Some? <==> line.Some? && exists i: nat :: MatchesAt(line.value, OutTimeKey, i)
    ensures t.Some? ==>
              exists i: nat :: && MatchesAt(line.value, OutTimeKey, i)
                               && t.value == StampMillis(line.value, i + |OutTimeKey|)
                               && forall j: nat :: j < i ==> !MatchesAt(line.value, OutTimeKey, j)
  {
    if line.None? || |line.value| == 0 then None
    else
      ScanIsLeftmostMatch(line.value, OutTimeKey);
      Scan(line.value, OutTimeKey)
  }

  /** `(currentTime / totalDuration) * 100` with both times in seconds, as the handler computes it. */
  function ExactPercent(elapsedMs: nat, totalMs: nat): (p: real)
    requires totalMs > 0
    ensures p * (totalMs as real) == (elapsedMs * 100) as real
  {
    (elapsedMs as real / 1000.0) / (totalMs as real / 1000.0) * 100.0
  }

  /** The update for an `out_time` of `elapsedMs`: the exact percentage and its truncation. */
  function ProgressAt(elapsedMs: nat, totalMs: nat): (u: Update)
    requires totalMs > 0
    ensures u.exact * (totalMs as real) == (elapsedMs * 100) as real
    ensures u.percent == elapsedMs * 100 / totalMs
  {
    PercentIsQuotient(elapsedMs, totalMs);
    Update(Truncate(ExactPercent(elapsedMs, totalMs)), ExactPercent(elapsedMs, totalMs))
  }

  /** The update one status line causes, given the total duration found by the probe. */
  function ParseProgress(line: Option<string>, totalMs: nat): (u: Option<Update>)
    requires totalMs > 0
    ensures u.Some? <==> line.Some? && exists i: nat :: MatchesAt(line.value, OutTimeKey, i)
    ensures u.Some? ==> && OutTime(line).Some?
                        && u.value.percent == OutTime(line).value * 100 / totalMs
                        && u.value.exact == ExactPercent(OutTime(line).value, totalMs)
  {
    match OutTime(line)
    case None => None
    case Some(elapsed) => Some(ProgressAt(elapsed, totalMs))
  }

  /** The handler's percentage is `elapsed * 100 / total`, and truncating it is integer division. */
  lemma PercentIsQuotient(elapsedMs: nat, totalMs: nat)
    requires totalMs > 0
    ensures ExactPercent(elapsedMs, totalMs) * (totalMs as real) == (elapsedMs * 100) as real
    ensures Truncate(ExactPercent(elapsedMs, totalMs)) == elapsedMs * 100 / totalMs
  {
    var x := ExactPercent(elapsedMs, totalMs);
    assert x == (elapsedMs * 100) as real / totalMs as real;
    FloorOfQuotient(elapsedMs * 100, totalMs);
  }

  /** For a non-negative numerator, truncating the real quotient is integer division. */
  lemma FloorOfQuotient(a: nat, b: nat)
    requires b > 0
    ensures Truncate(a as real / b as real) == a / b
  {
    var q := a / b;
    var x := a as real / b as real;
    assert a == q * b + a % b;
    assert x * b as real == a as real;
    assert (q * b) as real == q as real * b as real;
    assert ((q + 1) * b) as real == (q + 1) as real * b as real;
    assert q as real * b as real <= x * b as real;
    assert x * b as real < (q + 1) as real * b as real;
    assert q as real <= x;
    assert x < (q + 1) as real;
  }

  /** The updates a whole status stream causes, in the order of its lines. */
  function ProgressUpdates(lines: seq<Option<string>>, totalMs: nat): (us: seq<Update>)
    requires totalMs > 0
    ensures |us| <= |lines|
  {
    if |lines| == 0 then []
    else UpdatesOfLine(lines[0], totalMs) + ProgressUpdates(lines[1..], totalMs)
  }

  /** The updates one line causes: one for an `out_time` line, none otherwise. */
  function UpdatesOfLine(line: Option<string>, totalMs: nat): (us: seq<Update>)
    requires totalMs > 0
    ensures |us| <= 1
  {
    match ParseProgress(line, totalMs)
    case Some(u) => [u]
    case None => []
  }

  /** The number of `out_time` lines in a stream. */
  function CountOutTimeLines(lines: seq<Option<string>>): nat {
    if |lines| == 0 then 0
    else (if OutTime(lines[0]).Some? then 1 else 0) + CountOutTimeLines(lines[1..])
  }

  /** Every status line is parsed on its own: the updates of a concatenation are the concatenation of the updates. */
  lemma {:induction false} UpdatesOfConcatenation(a: seq<Option<string>>, b: seq<Option<string>>, totalMs: nat)
    requires totalMs > 0
    ensures ProgressUpdates(a + b, totalMs) == ProgressUpdates(a, totalMs) + ProgressUpdates(b, totalMs)
    decreases |a|
  {
    if |a| > 0 {
      assert (a + b)[0] == a[0];
      assert (a + b)[1..] == a[1..] + b;
      UpdatesOfConcatenation(a[1..], b, totalMs);
      ConcatAssociates(UpdatesOfLine(a[0], totalMs), ProgressUpdates(a[1..], totalMs), ProgressUpdates(b, totalMs));
    } else {
      assert a + b == b;
    }
  }

  /** Concatenation of sequences is associative. */
  lemma ConcatAssociates<T>(x: seq<T>, y: seq<T>, z: seq<T>)
    ensures x + (y + z) == (x + y) + z
  {
  }

  /** Exactly one update per `out_time` line, and none at all for a stream without one. */
  lemma {:induction false} OneUpdatePerOutTimeLine(lines: seq<Option<string>>, totalMs: nat)
    requires totalMs > 0
    ensures |ProgressUpdates(lines, totalMs)| == CountOutTimeLines(lines)
    ensures (forall k :: 0 <= k < |lines| ==> OutTime(lines[k]).None?) ==> ProgressUpdates(lines, totalMs) == []
  {
    if |lines| > 0 {
      OneUpdatePerOutTimeLine(lines[1..], totalMs);
      assert forall k :: 0 <= k < |lines| - 1 ==> lines[1..][k] == lines[k + 1];
    }
  }

  /** Later stream positions never show a smaller percentage than earlier ones report, as long as the encoder's clock does not run backwards. */
  lemma PercentMonotone(e1: nat, e2: nat, totalMs: nat)
    requires totalMs > 0 && e1 <= e2
    ensures e1 * 100 / totalMs <= e2 * 100 / totalMs
  {
    var q1 := e1 * 100 / totalMs;
    var q2 := e2 * 100 / totalMs;
    assert e1 * 100 == q1 * totalMs + e1 * 100 % totalMs;
    assert e2 * 100 == q2 * totalMs + e2 * 100 % totalMs;
    if q2 < q1 {
      MulLe(q2 + 1, q1, totalMs);
      assert false;
    }
  }

  /** Up to the total duration the percentage stays within 0..100; reaching the total gives exactly 100. */
  lemma PercentWithinRangeUntilEnd(elapsed: nat, totalMs: nat)
    requires totalMs > 0 && elapsed <= totalMs
    ensures 0 <= elapsed * 100 / totalMs <= 100
    ensures elapsed == totalMs ==> elapsed * 100 / totalMs == 100
  {
    MulLe(elapsed, totalMs, 100);
    QuotientAtMost(elapsed * 100, totalMs, 100);
    if elapsed == totalMs {
      QuotientOfMultiple(100, totalMs);
    }
  }

  lemma QuotientAtMost(a: nat, t: nat, c: nat)
    requires t > 0 && a <= c * t
    ensures a / t <= c
  {
    var q := a / t;
    assert a == q * t + a % t;
    if q > c {
      MulLe(c + 1, q, t);
      assert false;
    }
  }

  lemma QuotientOfMultiple(c: nat, t: nat)
    requires t > 0
    ensures (c * t) / t == c
  {
    var q := (c * t) / t;
    assert c * t == q * t + (c * t) % t;
    QuotientAtMost(c * t, t, c);
    if q < c {
      MulLe(q + 1, c, t);
      assert false;
    }
  }

  /** There is no clamp: an `out_time` past the probed duration yields a percentage above 100. */
  lemma PercentExceeds100PastTheEnd(elapsed: nat, totalMs: nat)
    requires totalMs > 0 && elapsed * 100 >= 101 * totalMs
    ensures elapsed * 100 / totalMs > 100
  {
    var q := elapsed * 100 / totalMs;
    assert elapsed * 100 == q * totalMs + elapsed * 100 % totalMs;
    if q <= 100 {
      MulLe(q, 100, totalMs);
      assert false;
    }
  }

  /** Forty-five seconds into a ninety-second video is 50 percent. */
  lemma HalfwayExample()
    ensures ParseProgress(Some("out_time=00:00:45.00"), 90000) == Some(Update(50, 50.0))
  {
    HalfwayOutTime();
    assert ProgressAt(45000, 90000) == Update(50, 50.0);
  }

  lemma HalfwayOutTime()
    ensures OutTime(Some("out_time=00:00:45.00")) == Some(45000)
  {
    FortyFiveSeconds();
    assert "out_time=00:00:45.00" == OutTimeKey + "00:00:45.00" + "";
    ScanFormatted(OutTimeKey, 45000, "");
  }

  lemma FortyFiveSeconds()
    ensures FormatStamp(45000) == "00:00:45.00"
  {
    assert 45000 / MillisPerHour == 0 && 45000 / 60000 % 60 == 0 && 45000 / 1000 % 60 == 45 && 45000 % 1000 / 10 == 0;
    PadExamples();
  }

  /** A ninety-second encode of a video probed at sixty seconds reports 150 percent. */
  lemma OverrunExample()
    ensures ParseProgress(Some("out_time=00:01:30.00"), 60000) == Some(Update(150, 150.0))
  {
    OverrunOutTime();
    assert ProgressAt(90000, 60000) == Update(150, 150.0);
  }

  lemma OverrunOutTime()
    ensures OutTime(Some("out_time=00:01:30.00")) == Some(90000)
  {
    NinetySeconds();
    assert "out_time=00:01:30.00" == OutTimeKey + "00:01:30.00" + "";
    ScanFormatted(OutTimeKey, 90000, "");
  }

  lemma NinetySeconds()
    ensures FormatStamp(90000) == "00:01:30.00"
  {
    assert 90000 / MillisPerHour == 0 && 90000 / 60000 % 60 == 1 && 90000 / 1000 % 60 == 30 && 90000 % 1000 / 10 == 0;
    PadExamples();
  }
}

=== FILE: timestamp.dfy ===
/**
 Scanning a line of encoder output for `<key>HH:MM:SS.CC`, the shape of the
 two regular expressions `Duration: (\d{2}):(\d{2}):(\d{2})\.(\d{2})` and
 `out_time=(\d{2}):(\d{2}):(\d{2})\.(\d{2})`. A match is searched from the
 left, as `Regex.Match` does, and its four two-digit groups become a
 `TimeSpan(0, h, m, s, cc * 10)`, kept here as whole milliseconds.
 */
module Timestamp {
  import opened Wrappers

  /** Length of `HH:MM:SS.CC`. */
  const StampWidth: nat := 11

  /** The largest value the four two-digit groups can denote: 99:99:99.99. */
  const MaxStampMillis: nat := ((99 * 60 + 99) * 60 + 99) * 1000 + 990

  const MillisPerHour: nat := 3600000

  predicate IsDigit(c: char) {
    '0' <= c <= '9'
  }

  function DigitValue(c: char): (v: nat)
    requires IsDigit(c)
    ensures v < 10
  {
    (c as int) - ('0' as int)
  }

  function DigitChar(v: nat): (c: char)
    requires v < 10
    ensures IsDigit(c) && DigitValue(c) == v
  {
    (v + '0' as int) as char
  }

  /** The decimal number written by the digits `s[i]` and `s[i+1]` (what `int.Parse` gives for one group). */
  function TwoDigits(s: string, i: nat): (v: nat)
    requires i + 2 <= |s| && IsDigit(s[i]) && IsDigit(s[i + 1])
    ensures v < 100
    ensures v / 10 == DigitValue(s[i]) && v % 10 == DigitValue(s[i + 1])
  {
    10 * DigitValue(s[i]) + DigitValue(s[i + 1])
  }

  /** `s[i..i+11]` has the shape `dd:dd:dd.dd` with ASCII digits. */
  predicate IsStampAt(s: string, i: nat) {
    && i + StampWidth <= |s|
    && IsDigit(s[i]) && IsDigit(s[i + 1]) && s[i + 2] == ':'
    && IsDigit(s[i + 3]) && IsDigit(s[i + 4]) && s[i + 5] == ':'
    && IsDigit(s[i + 6]) && IsDigit(s[i + 7]) && s[i + 8] == '.'
    && IsDigit(s[i + 9]) && IsDigit(s[i + 10])
  }

  /** Milliseconds of `TimeSpan(0, hours, minutes, seconds, centis * 10)`; components are not range-checked. */
  function SpanMillis(hours: nat, minutes: nat, seconds: nat, centis: nat): (ms: nat)
    ensures ms == hours * MillisPerHour + minutes * 60000 + seconds * 1000 + centis * 10
  {
    ((hours * 60 + minutes) * 60 + seconds) * 1000 + centis * 10
  }

  /** The time written by the stamp at `s[i..]`. */
  function StampMillis(s: string, i: nat): (ms: nat)
    requires IsStampAt(s, i)
    ensures ms <= MaxStampMillis
    ensures ms % 10 == 0
  {
    SpanMillis(TwoDigits(s, i), TwoDigits(s, i + 3), TwoDigits(s, i + 6), TwoDigits(s, i + 9))
  }

  /** The pattern `<key>dd:dd:dd.dd` matches starting at position `i` of `s`. */
  predicate MatchesAt(s: string, key: string, i: nat) {
    && i + |key| + StampWidth <= |s|
    && s[i..i + |key|] == key
    && IsStampAt(s, i + |key|)
  }

  /** The leftmost position at or after `from` where the pattern matches, as a left-to-right regex search finds it. */
  function FindFrom(s: string, key: string, from: nat): (r: Option<nat>)
    requires from <= |s|
    decreases |s| - from
    ensures r.Some? ==> from <= r.value && MatchesAt(s, key, r.value)
    ensures r.Some? ==> forall j: nat :: from <= j < r.value ==> !MatchesAt(s, key, j)
    ensures r.None? ==> forall j: nat :: from <= j ==> !MatchesAt(s, key, j)
  {
    if MatchesAt(s, key, from) then Some(from)
    else if from == |s| then None
    else FindFrom(s, key, from + 1)
  }

  /** The time of the leftmost match of `<key>HH:MM:SS.CC` in `s`, if any. */
  function Scan(s: string, key: string): (r: Option<nat>)
    ensures r.Some? ==> r.value <= MaxStampMillis && r.value % 10 == 0
  {
    match FindFrom(s, key, 0)
    case Some(i) => Some(StampMillis(s, i + |key|))
    case None => None
  }

  /** `Scan` reports a time exactly when the pattern occurs, and the time is that of the leftmost occurrence. */
  lemma ScanIsLeftmostMatch(s: string, key: string)
    ensures Scan(s, key).Some? <==> exists i: nat :: MatchesAt(s, key, i)
    ensures Scan(s, key).Some? ==>
              exists i: nat :: && MatchesAt(s, key, i)
                               && Scan(s, key).value == StampMillis(s, i + |key|)
                               && forall j: nat :: j < i ==> !MatchesAt(s, key, j)
  {
  }

  /** Two decimal digits for `v < 100`. */
  function Pad2(v: nat): (r: string)
    requires v < 100
    ensures |r| == 2 && IsDigit(r[0]) && IsDigit(r[1])
    ensures TwoDigits(r, 0) == v
  {
    [DigitChar(v / 10), DigitChar(v % 10)]
  }

  /** `HH:MM:SS.CC` for a time below 100 hours that is a whole number of centiseconds. */
  function FormatStamp(ms: nat): (r: string)
    requires ms % 10 == 0 && ms < 100 * MillisPerHour
    ensures |r| == StampWidth && IsStampAt(r, 0)
  {
    Pad2(ms / MillisPerHour) + ":" + Pad2(ms / 60000 % 60) + ":" + Pad2(ms / 1000 % 60) + "." + Pad2(ms % 1000 / 10)
  }

  /** The two-digit groups the examples use. */
  lemma PadExamples()
    ensures Pad2(0) == "00" && Pad2(1) == "01" && Pad2(2) == "02"
    ensures Pad2(30) == "30" && Pad2(45) == "45" && Pad2(50) == "50"
  {
  }

  /** Splitting a time into hours, minutes, seconds and centiseconds and adding them back up gives it back. */
  lemma SpanOfParts(ms: nat)
    requires ms % 10 == 0
    ensures SpanMillis(ms / MillisPerHour, ms / 60000 % 60, ms / 1000 % 60, ms % 1000 / 10) == ms
  {
    var sec := ms / 1000;
    var mins := ms / 60000;
    var hours := ms / MillisPerHour;
    DivideInSteps(ms, 1000, 60);
    DivideInSteps(ms, 60000, 60);
    assert mins == sec / 60 && hours == mins / 60;
    assert ms % 1000 / 10 * 10 == ms % 1000;
    assert sec * 1000 + ms % 1000 == ms;
    assert mins * 60 + sec % 60 == sec;
    assert hours * 60 + mins % 60 == mins;
  }

  /** Dividing by `b` and then by `c` is dividing by `b * c`. */
  lemma DivideInSteps(a: nat, b: nat, c: nat)
    requires b > 0 && c > 0
    ensures a / b / c == a / (b * c)
  {
    var q := a / b / c;
    var r := a / b % c;
    assert a / b == q * c + r;
    assert a == (q * c + r) * b + a % b;
    assert a == q * (b * c) + (r * b + a % b);
    assert r * b + a % b < b * c by {
      assert r <= c - 1;
      assert r * b <= (c - 1) * b;
    }
    DivisionIsUnique(a, b * c, q, r * b + a % b);
  }

  lemma DivisionIsUnique(a: nat, d: nat, q: nat, r: nat)
    requires d > 0 && r < d && a == q * d + r
    ensures a / d == q
  {
    var p := a / d;
    assert a == p * d + a % d;
    if p < q {
      MulLe(p + 1, q, d);
      assert false;
    }
    if q < p {
      MulLe(q + 1, p, d);
      assert false;
    }
  }

  lemma MulLe(x: int, y: int, t: nat)
    requires x <= y
    ensures x * t <= y * t
  {
  }

  /** Reading back a formatted stamp gives the time that was formatted. */
  lemma {:induction false} StampRoundTrip(ms: nat, prefix: string, rest: string)
    requires ms % 10 == 0 && ms < 100 * MillisPerHour
    ensures IsStampAt(prefix + FormatStamp(ms) + rest, |prefix|)
    ensures StampMillis(prefix + FormatStamp(ms) + rest, |prefix|) == ms
  {
    var f := FormatStamp(ms);
    var s := prefix + f + rest;
    assert s[|prefix|..|prefix| + StampWidth] == f;
    forall k | 0 <= k < StampWidth
      ensures s[|prefix| + k] == f[k]
    {
      assert s[|prefix| + k] == s[|prefix|..|prefix| + StampWidth][k];
    }
    assert TwoDigits(s, |prefix|) == TwoDigits(f, 0);
    assert TwoDigits(s, |prefix| + 3) == TwoDigits(f, 3);
    assert TwoDigits(s, |prefix| + 6) == TwoDigits(f, 6);
    assert TwoDigits(s, |prefix| + 9) == TwoDigits(f, 9);
    assert TwoDigits(f, 0) == ms / MillisPerHour;
    assert TwoDigits(f, 3) == ms / 60000 % 60;
    assert TwoDigits(f, 6) == ms / 1000 % 60;
    assert TwoDigits(f, 9) == ms % 1000 / 10;
    SpanOfParts(ms);
  }

  /** A line that starts with `<key>` followed by a formatted stamp is read as that stamp's time. */
  lemma {:induction false} ScanFormatted(key: string, ms: nat, rest: string)
    requires ms % 10 == 0 && ms < 100 * MillisPerHour
    ensures Scan(key + FormatStamp(ms) + rest, key) == Some(ms)
  {
    var s := key + FormatStamp(ms) + rest;
    StampRoundTrip(ms, key, rest);
    assert s[0..|key|] == key;
    assert MatchesAt(s, key, 0);
  }

  /** Leading blanks before the key, as in the encoder's indented metadata lines, do not change what is read. */
  lemma {:induction false} ScanIndented(pad: string, key: string, ms: nat, rest: string)
    requires forall k :: 0 <= k < |pad| ==> pad[k] == ' '
    requires |key| > 0 && key[0] != ' '
    requires ms % 10 == 0 && ms < 100 * MillisPerHour
    ensures Scan(pad + key + FormatStamp(ms) + rest, key) == Some(ms)
  {
    var s := pad + key + FormatStamp(ms) + rest;
    assert s == pad + key + FormatStamp(ms) + rest;
    StampRoundTrip(ms, pad + key, rest);
    assert s[|pad|..|pad| + |key|] == key;
    assert MatchesAt(s, key, |pad|);
    forall j: nat | j < |pad|
      ensures !MatchesAt(s, key, j)
    {
      assert s[j..j + |key|][0] == ' ';
    }
    FindSkipsNonMatches(s, key, 0, |pad|);
  }

  /** The search passes over positions where the pattern does not match. */
  lemma {:induction false} FindSkipsNonMatches(s: string, key: string, from: nat, to: nat)
    requires from <= to <= |s|
    requires forall j: nat :: from <= j < to ==> !MatchesAt(s, key, j)
    ensures FindFrom(s, key, from) == FindFrom(s, key, to)
    decreases (to as int) - (from as int)
  {
    if from < to {
      FindSkipsNonMatches(s, key, from + 1, to);
    }
  }
}

=== FILE: wrappers.dfy ===
/** Failure-carrying result types shared by the modules of the model. */
module Wrappers {

  /** A value that may be absent; also stands for a .NET `null` string. */
  datatype Option<+T> = None | Some(value: T)

  /** Either a computed value or the error that stopped the computation. */
  datatype Result<+R, +E> = Success(value: R) | Failure(error: E)
}
